=== FILE: README.md ===
# medCare back end — a Dafny model of its sequential core

This project models three pieces of the medCare Express back end as pure Dafny
functions over immutable values. It proves properties about each.

- **Registration and OTP login gating** (`controllers/authController.js`).
  - The user table is a map from identifier (email or phone) to a user row, plus the
    auto-increment counter.
  - `register`, `login`, `verifyOtp` and `resendOtp` are step functions. Each takes the
    table, the request, the clock reading and a four-digit code draw. Each returns the
    response, the new table and the code notice that would be dispatched.
  - A code is the decimal string of a draw in 1000..9999 and expires 60 000 ms after
    it is issued.
  - Unverified users never receive a token. The expiry check comes before the code
    comparison. Verification is never undone.
- **Hospital search ranking** (`controllers/hospitalController.js`, `findHospitals`).
  - The search string is tokenised exactly as `trim().split(/\s+/).filter(Boolean)`.
    This is proved equal to a reference definition: the maximal runs of
    non-white-space characters.
  - Each fetched hospital is scored by the number of distinct tokens whose lowercase
    form occurs in its lowercased text.
  - The hospitals are stably sorted by descending score, and one page of two is cut
    with JavaScript `slice` semantics.
  - The page arithmetic of `getAllHospital` is modelled too.
- **Article store** (`controllers/article.controller.js`).
  - The three tables (categories, articles, summary rows) form one store value.
  - The write handlers keep an invariant:
    - category names are unique and non-empty;
    - every article's category exists;
    - every summary row belongs to an article;
    - ids stay below their counters.
  - Deleting a category cascades to its articles and their summaries. Updating an
    article replaces its summaries wholesale.
  - The three paginated listings share one page computation. `page = parseInt(p) || 1`,
    `offset = (page - 1) * limit` and `totalPages = ceil(count / limit)`, with limits
    2, 5 and 2.

**Parameters in place of outside code**

- The auth handlers are modelled with a working mysql2 connection. As wired, their
  database handle lacks `promise()`; see "Left out".
- Password hashing and comparison (bcrypt) and token signing (JWT) are the fields of
  a `Crypto` value.
- The random draw is a `CodeDraw` in 1000..9999.
- The clock is an integer millisecond argument.
- Lowercasing is a function argument.
- The rows a database query returns, in its order, are sequence arguments.

**JavaScript behaviours written out**

- truthiness of absent or empty strings;
- `parseInt` yielding NaN;
- `${null}` printing "null";
- `slice` with negative arguments;
- the ECMAScript white-space set.

**Behaviours that follow from the code**

- A negative page in the Sequelize listings produces a negative `OFFSET`, and the
  query fails with 500.
- In `findHospitals` a negative page is handed to `slice` and counts back from the end
  of the ranking.
- `updateCategory` answers a missing category, or a name clash, with status 201 and
  `success: false`.
- A failed mail or SMS send answers 500 after the row is already written, because the
  code awaits the send inside its `try` block. The model leaves transport failures out,
  except one case. A registration by exactly "email" or "phone" without the identifier
  value is a 500 whose inserted row no lookup can reach.
- Only `isNotify` `0` or `"0"` is refused. A boolean `false` registers
  (`AuthProperties.NotifyFalseIsNotRefused`).
- Login returns the stored email (or phone) of an unverified user as it is, unmasked.
- `register` splices `type` into its INSERT as a column name, and MySQL matches column
  names without regard to letter case. So `type` "Phone" inserts into the phone column
  and answers 201 without sending a code. `type` "EMAIL" writes the phone value into
  the email column, because the value chosen is `type === "email" ? email : phone`.

Files:

| file | module | contents |
|---|---|---|
| js_values.dfy | JsValues | optional values, truthiness, `parseInt` results, `slice`, `${}` |
| decimal.dfy | Decimal | decimal numerals of naturals and their parse |
| otp.dfy | Otp | issuing and validating a code |
| auth.dfy | Auth | the user table and the four auth handlers |
| auth_properties.dfy | AuthProperties | invariant, monotonicity, token gating, scenarios |
| pagination.dfy | Pagination | `page || 1`, offset, `LIMIT` window, `totalPages` |
| search_text.dfy | SearchText | trim/split/filter tokenisation and the reference words |
| hospital_search.dfy | HospitalSearch | scoring, stable sort, `findHospitals`, `getAllHospital` |
| article_store.dfy | ArticleStore | the store and the write handlers |
| article_views.dfy | ArticleViews | listings, detail view, flattened category name |
| article_properties.dfy | ArticleProperties | invariant preservation, cascades, summaries |

## Model

| member | source | states |
|---|---|---|
| JsValues.PageOrOne | controllers/article.controller.js:54 | `parseInt(p) \|\| 1` is never 0 and keeps every non-zero parsed page; NaN and 0 become 1 |
| JsValues.SliceNonNegative | controllers/hospitalController.js:255-257 | with non-negative arguments `slice(start, end)` is the window from `start` to `end`, both clamped to the length |
| Decimal.ToDecimal | controllers/authController.js:52 | `toString()` of a non-negative integer is a non-empty digit string without a leading zero |
| Decimal.ParseToDecimal | controllers/authController.js:52 | reading the decimal string back gives the original number |
| Decimal.ToDecimalInjective | controllers/authController.js:52 | different numbers print as different strings |
| Decimal.FourDigits | controllers/authController.js:52 | every number in 1000..9999 prints with exactly four digits |
| Otp.Issue | controllers/authController.js:52-53 | an issued code is a four-digit numeral that parses back to the draw, and it expires exactly 60 000 ms after issue |
| Otp.IssueDistinguishesDraws | controllers/authController.js:262-263 | codes from two different draws differ, whatever the issue times |
| Otp.Validate | controllers/authController.js:213-220 | expired iff `now` is strictly after the expiry, whatever code was sent; accepted iff not expired and the code is equal; otherwise mismatch |
| Otp.FreshCodeWindow | controllers/authController.js:213-220 | a freshly issued code is accepted up to and including 60 000 ms after issue and reported expired from the next millisecond |
| Auth.KindKey | controllers/authController.js:37-44 | register and login look up the email value in the email column exactly when `type` is "email", and the phone value in the phone column otherwise; an absent value finds no row |
| Auth.InsertColumn | controllers/authController.js:58 | for a `type` written as a bare identifier, the column `${type}` names is the email column iff `type` spells "email" up to ASCII letter case, and the phone column iff it spells "phone"; "email" and "phone" name their own columns (other spellings MySQL accepts are listed under Left out) |
| Auth.StoredKey | controllers/authController.js:55-69 | the inserted row is found by the value `type === "email" ? email : phone` in the column `type` names; for exactly "email" or "phone" that is the key the duplicate check looked up |
| Auth.Dispatch | controllers/authController.js:71-90 | a code is sent iff `type` is exactly "email" or "phone", by mail iff it is "email", and the sent code is the issued one |
| Auth.ContactKey | controllers/authController.js:200-205 | verify and resend look up by email whenever an email is given, and by phone only without one |
| Auth.Register | controllers/authController.js:20-104 | for a `type` without SQL syntax (see Left out): missing type, password or name is 400 and `isNotify` 0 or "0" is 403, both with no change; 409 iff the looked-up identifier exists, with no change; 201 iff the identifier is fresh, `type` names the email or phone column up to case, the inserted value is not already held in that column, and an exact "email"/"phone" request carries its value; a 201 takes the next id, adds exactly the inserted row (unverified, hashed password, issued code) when its value is present, keeps every other row, and sends exactly the `Dispatch` notice; the rows change only on 201 |
| Auth.Login | controllers/authController.js:106-188 | in this order: 400 iff `type` or password is falsy; 404 iff the looked-up identifier is absent; 401 "Invalid password" iff the password does not match; 401 `requireOtp` iff it matches an unverified user, replacing exactly that row's challenge by a fresh one and sending it per `Dispatch`; a token iff it matches a verified user; only `requireOtp` changes the table or sends anything |
| Auth.VerifyOtp | controllers/authController.js:190-233 | 400 "required" iff the otp or both contacts are falsy; 404 iff the contact finds no row; "expired" iff `now` is after the stored expiry, whatever the code; "invalid" iff within the window and the code differs; verified iff within the window and the code is equal; only verification changes the table, and it sets only the verified flag of the matched row |
| Auth.ResendOtp | controllers/authController.js:235-301 | a verified user gets 400 and no change; otherwise the row's challenge is replaced by a fresh one and the new code is mailed when an email was given and texted otherwise |
| AuthProperties.StepPreservesWellFormed | controllers/authController.js:55-69 | every handler keeps rows keyed by their own identifier, ids distinct and below the counter, and every stored code a four-digit numeral |
| AuthProperties.InsertKeepsWellFormed | controllers/authController.js:55-69 | inserting a row with a new identifier under the next id keeps the table invariant |
| AuthProperties.ReplaceKeepsWellFormed | controllers/authController.js:135-140 | rewriting a row's code or flag in place keeps the table invariant |
| AuthProperties.StepIsMonotonic | controllers/authController.js:222-224 | no handler removes a row, changes a user's id, name, identifier or password, lowers the counter, or turns a verified user back to unverified |
| AuthProperties.ChallengeReplacedOnlyByIssue | controllers/authController.js:132-140 | a stored challenge changes only for an unverified user, and then becomes this step's code expiring at `now + 60000` |
| AuthProperties.NoticeCarriesStoredCode | controllers/authController.js:71-90 | any dispatched code is the freshly issued one and is the code now stored on some row |
| AuthProperties.TokensOnlyForVerifiedUsers | controllers/authController.js:129-183 | a login that yields a token names a user who was already verified before the call |
| AuthProperties.ResendInvalidatesPreviousCode | controllers/authController.js:262-271 | after a resend to any unverified user, by email or by phone, with a different draw, the previously held code is never accepted again, at any time and through any contact that reaches that user |
| AuthProperties.CapitalisedPhoneRegistersSilently | controllers/authController.js:37-97 | `type` "Phone" with a fresh number registers an unverified row reachable by that number, answers 201 and sends no code |
| AuthProperties.RegisterVerifyLogin | controllers/authController.js:20-226 | registering by email, submitting the dispatched code within 60 s, then logging in with the same password yields a token for the new id |
| AuthProperties.NotifyFalseIsNotRefused | controllers/authController.js:29 | only `isNotify` 0 or "0" is refused; a boolean false, or an absent field, passes the opt-in check |
| AuthProperties.LoginBeforeVerifyReissues | controllers/authController.js:129-170 | logging in right after registering, without verifying, is 401 and mails a new code that replaces the registration code |
| Pagination.TotalPages | controllers/article.controller.js:78 | `Math.ceil(count / limit)`: the smallest page count whose pages hold every row |
| Pagination.Window | controllers/article.controller.js:73-74 | `LIMIT offset, limit` returns at most `limit` rows, each the row at its offset position |
| Pagination.ListPage | controllers/article.controller.js:105-116 | a listing answers iff the page is at least 1, since a negative offset fails the query; it then echoes the page and gives `ceil(count / limit)` pages of at most `limit` rows |
| Pagination.DefaultPageIsFirst | controllers/article.controller.js:105 | an unparsable or zero page shows the first page |
| Pagination.PageContents | controllers/article.controller.js:105-116 | page `p >= 1` holds rows `[(p-1)*limit, p*limit)` and is non-empty iff `p <= totalPages` |
| Pagination.EveryRowOnItsPage | controllers/article.controller.js:105-116 | every row appears, at position `i % limit`, on page `i / limit + 1` |
| Pagination.OnePageCovers | controllers/article.controller.js:107 | exactly one page's offset range contains a given row position |
| SearchText.Trim | controllers/hospitalController.js:164 | `trim()` is a slice `s[i..j]` with only white space before `i` and from `j` on; it is empty iff the string is all white space, and otherwise starts and ends with non-white space, so the cut is maximal |
| SearchText.TrimmedEnds | controllers/hospitalController.js:164 | cutting a white-space prefix and then a white-space suffix strips the string to the rest, which is empty iff the string is all white space |
| SearchText.SplitOnSpaces | controllers/hospitalController.js:168 | `split(/\s+/)` yields at least one piece and no piece contains white space |
| SearchText.Words | controllers/hospitalController.js:168 | the reference words are non-empty and free of white space |
| SearchText.TrimKeepsWords | controllers/hospitalController.js:168 | trimming does not change the words of a string |
| SearchText.SplitThenDropEmptyIsWords | controllers/hospitalController.js:168 | splitting on white-space runs and dropping empty pieces gives exactly the words |
| SearchText.SearchWordsAreWords | controllers/hospitalController.js:168 | the search tokens are exactly the maximal non-white-space runs, in order |
| SearchText.WordsOfJoin | controllers/hospitalController.js:168 | the words of words joined by single spaces are those words |
| SearchText.WordsKeepEveryCharacter | controllers/hospitalController.js:168 | the tokens together hold every non-white-space character of the search, in order, and nothing else |
| HospitalSearch.MatchedWords | controllers/hospitalController.js:242-246 | a word is matched iff it is a search word whose lowercase form occurs in the lowercased hospital text |
| HospitalSearch.ScoreCountsDistinctMatches | controllers/hospitalController.js:243-246 | a score never exceeds the number of distinct search words, and counts a word iff it occurs |
| HospitalSearch.ScoreAll | controllers/hospitalController.js:231-249 | each fetched hospital, in order, is paired with its score |
| HospitalSearch.Hospitals | controllers/hospitalController.js:257 | dropping the scores keeps the hospitals in place |
| HospitalSearch.InsertKeepsSorted | controllers/hospitalController.js:252 | inserting into a score-sorted list keeps it sorted |
| HospitalSearch.InsertWithScore | controllers/hospitalController.js:252 | an insert puts the new entry ahead of the earlier entries with its score |
| HospitalSearch.InsertHospitals | controllers/hospitalController.js:252 | an insert adds exactly the new hospital |
| HospitalSearch.StableSortSpec | controllers/hospitalController.js:252 | the sort is non-increasing in score, a permutation of the hospitals, and keeps equal scores in their original order |
| HospitalSearch.RankingIsStableSortByScore | controllers/hospitalController.js:231-252 | the ranking is a permutation of the fetched hospitals, sorted by descending true score, with ties in fetched order |
| HospitalSearch.FindHospitals | controllers/hospitalController.js:156-277 | 400 iff the search is absent or all white space; a page shows one or two hospitals; total and page count are over all fetched hospitals |
| HospitalSearch.SearchShowsOnlyFetched | controllers/hospitalController.js:255-257 | a page only shows fetched hospitals, none more often than fetched |
| HospitalSearch.SliceIsSubMultiset | controllers/hospitalController.js:255-257 | a page slice has at most `limit` entries drawn from the ranking |
| HospitalSearch.HospitalsAppend | controllers/hospitalController.js:257 | dropping scores distributes over concatenation |
| HospitalSearch.SearchPageWindow | controllers/hospitalController.js:255-265 | for page `p >= 1` the response shows the ranked hospitals at `[(p-1)*2, p*2)`, and is 404 iff `(p-1)*2 >= total` |
| HospitalSearch.UnusablePageFindsNothing | controllers/hospitalController.js:160-162 | an unparsable or zero page always yields 404 |
| HospitalSearch.NegativePageWindow | controllers/hospitalController.js:158-265 | for every page of -1 or less and any number `n` of fetched hospitals, the response shows the ranked hospitals at `[max(n + (page-1)*2, 0), max(n + page*2, 0))`, and is 404 iff that window is empty |
| HospitalSearch.NegativePageCountsFromEnd | controllers/hospitalController.js:255-257 | page -1 of five ranked hospitals shows the second and third, since `slice` counts negative positions from the end |
| HospitalSearch.AllHospitals | controllers/hospitalController.js:50-100 | `getAllHospital` pages the active hospitals two at a time, with page `parseInt(p) \|\| 1` and `ceil(count / 2)` pages |
| ArticleStore.DropRows | controllers/article.controller.js:449-452 | deleting the rows of some articles keeps exactly the other rows |
| ArticleStore.RowsFor | controllers/article.controller.js:455-461 | the new rows are the supplied summaries, in order, all for the given article |
| ArticleStore.SummariesOfAppend | controllers/article.controller.js:463 | an article's summaries in appended rows are its summaries in each part, in order |
| ArticleStore.SummariesOfRowsFor | controllers/article.controller.js:455-463 | rows written for an article give it exactly the supplied summaries and give nobody else any |
| ArticleStore.SummariesOfDropRows | controllers/article.controller.js:449-452 | deleting some articles' rows empties their summaries and leaves every other article's summaries unchanged |
| ArticleStore.AddCategory | controllers/article.controller.js:229-260 | a falsy name is 400 and a used name 409, both with no change; otherwise exactly one category is created under the next id |
| ArticleStore.UpdateCategory | controllers/article.controller.js:303-352 | a missing id or a name held by another category is 201 with `success: false` and no change; otherwise only that category changes, with a falsy name or image keeping the stored value |
| ArticleStore.DeleteCategory | controllers/article.controller.js:262-301 | a missing id is 404; otherwise the category and exactly the articles filed under it disappear, and every other row is kept as it was |
| ArticleStore.Override | controllers/article.controller.js:438-447 | a supplied field replaces the stored value and an absent one keeps it |
| ArticleStore.AddArticle | controllers/article.controller.js:358-410 | a missing title or unknown category is 500 with no change; otherwise one article is created under the next id and its summary rows are appended after the existing ones |
| ArticleStore.UpdateArticle | controllers/article.controller.js:412-479 | a missing article is 404 and a dangling category 500, both with no change; otherwise only that article changes, merged field by field |
| ArticleStore.DeleteArticle | controllers/article.controller.js:482-515 | a missing article is 404; otherwise exactly that article and exactly its summary rows disappear |
| ArticleViews.CategoryNameOf | controllers/article.controller.js:87 | the flattened name is present exactly when the article's category exists and has a non-empty name, and is then that name |
| ArticleViews.Present | controllers/article.controller.js:63-76 | the query rows are exactly the stored articles of the given order that satisfy the filter |
| ArticleViews.PresentCountsStored | controllers/article.controller.js:63-78 | over an ordering of the whole table, the rows of a filtered query are as many as the stored articles satisfying the filter, so `count` and `rows` agree |
| ArticleViews.Cards | controllers/article.controller.js:81-88 | one flattened row per fetched article, in order |
| ArticleViews.Filed | controllers/article.controller.js:63-76 | the `where: { categoryId }` rows are stored articles filed under that category, and over an ordering of the whole table there are as many as the category has stored articles |
| ArticleViews.ArticlesByCategory | controllers/article.controller.js:51-99 | an unparsable category is 400 before any query; an answering page `p` (`parseInt(page) \|\| 1`, at least 1) holds the cards of the category's articles at positions `[(p-1)*2, p*2)` of the newest-first order, is non-empty iff `p <= ceil(n / 2)`, and reports `ceil(n / 2)` pages where `n` is the number of stored articles in that category |
| ArticleViews.ArticleList | controllers/article.controller.js:103-127 | an answering page `p` holds the stored articles at positions `[(p-1)*5, p*5)` of the newest-first order, is non-empty iff `p <= ceil(n / 5)`, and reports `ceil(n / 5)` pages where `n` is the number of stored articles |
| ArticleViews.ArticleSearch | controllers/article.controller.js:179-227 | an answering page `p` holds the matched articles at positions `[(p-1)*2, p*2)`, is non-empty iff `p <= ceil(matches / 2)`, and reports `ceil(matches / 2)` pages |
| ArticleViews.ArticleDetail | controllers/article.controller.js:130-175 | 404 iff the article is missing; otherwise the article with its flattened category name and its summaries |
| ArticleProperties.StepKeepsConsistent | controllers/article.controller.js:229-515 | every write handler keeps category names unique and non-empty, categories of articles existing, summary rows attached to articles, and ids below their counters |
| ArticleProperties.AddCategoryKeepsConsistent | controllers/article.controller.js:234-247 | adding a category keeps the store invariant |
| ArticleProperties.UpdateCategoryKeepsConsistent | controllers/article.controller.js:318-337 | the name check on update keeps category names unique |
| ArticleProperties.DeleteCategoryKeepsConsistent | controllers/article.controller.js:286-287 | the cascade leaves no article pointing at the deleted category and no orphaned summary row |
| ArticleProperties.AddArticleKeepsConsistent | controllers/article.controller.js:373-394 | adding an article keeps the store invariant |
| ArticleProperties.UpdateArticleKeepsConsistent | controllers/article.controller.js:438-464 | updating an article keeps the store invariant |
| ArticleProperties.DeleteArticleKeepsConsistent | controllers/article.controller.js:495-501 | deleting an article keeps the store invariant |
| ArticleProperties.AddCategoryAddsExactlyOne | controllers/article.controller.js:240-247 | a successful add grows the category table by exactly one fresh id, and the same name is then refused with 409 |
| ArticleProperties.UpdateCategoryIdempotent | controllers/article.controller.js:334-337 | repeating a category update changes nothing more |
| ArticleProperties.EmptyCategoryUpdateChangesNothing | controllers/article.controller.js:334-337 | an update with neither name nor image leaves the store as it was |
| ArticleProperties.UpdateArticleReplacesSummaries | controllers/article.controller.js:449-464 | after an update the article's summaries are exactly the supplied list, and other articles' summaries are unchanged |
| ArticleProperties.ReplacedSummariesOf | controllers/article.controller.js:449-464 | deleting an article's rows and writing rows for a new list gives it exactly that list and leaves every other article's summaries alone |
| ArticleProperties.DeleteCategoryCascades | controllers/article.controller.js:286-287 | deleting a category removes each of its articles and all their summaries, and keeps every other article with its summaries |
| ArticleProperties.DeleteArticleRemovesSummaries | controllers/article.controller.js:495-501 | deleting an article removes its summaries and nobody else's |
| ArticleProperties.DeleteArticleTwiceIsNotFound | controllers/article.controller.js:487-494 | a second delete of the same article is 404 |
| ArticleProperties.CategoryNameNullIffUncategorised | controllers/article.controller.js:166 | in a consistent store the flattened category name is null exactly for articles without a category |
| ArticleProperties.DetailAfterUpdate | controllers/article.controller.js:412-479 | the detail view after an update shows the merged fields and exactly the supplied summaries |
| ArticleProperties.DetailAfterCategoryDelete | controllers/article.controller.js:286-287 | no article of a deleted category can be fetched afterwards |

## Left out

- Mail and SMS dispatch (nodemailer, twilio): recorded only as a `Notice` with its channel and code. The destination formatting is not modelled. This covers the `+91` prefix and the hard-coded fallback number in `register`.
- bcrypt and JWT are uninterpreted `Crypto` fields.
- `Math.random` and `Date` are parameters.
- `otp_expire_time` is a `DATETIME`. The model does not truncate it to seconds, apply a time zone, or convert it between the clock and the database.
- Races between the read-then-write sequences of concurrent requests: concurrency, not sequential behaviour.
- Crashes between two writes of one handler: each handler is atomic in the model. Examples are a failed summary insert after `addArticle` created the article, or a mail failure after `register` inserted its row.
- Failed inserts that still consume an auto-increment id (a foreign-key failure in `addArticle`): the article counter stays unchanged. Only freshness of ids matters to the properties.
- The database filters of `findHospitals` (`LIKE` over name, city, state and specialties) and `getArticleBySearch`: their results enter as the fetched sequence.
- The `created_at DESC` ordering also enters as the fetched sequence.
- `toLowerCase`: an abstract function, with no Unicode case mapping.
- Character-set and collation rules of MySQL value comparisons: names and identifiers compare by exact equality.
- Auth.Register: a `type` matches a column name only as a bare identifier, up to ASCII letter case. MySQL also accepts other spellings of the same column: surrounding white space (`"phone "`), backquotes, a `tbl_user.` qualifier, embedded comments, and Unicode case folding. The source inserts the row for these, sends nothing and answers 201. The model answers 500 and leaves the table unchanged.
- Auth.Register: `type` is pasted into the INSERT as raw SQL text (`controllers/authController.js:58`), so a crafted `type` can rewrite the statement. An example is `phone, isVerify, password) VALUES (...) #`, which comments out the placeholders. It can then insert any columns, including `isVerify = 1` and a password hash the caller chose. The source answers 201 and sends nothing, and a login with that phone and password then returns a token without any OTP. The model answers 500 for such a `type` and leaves the table unchanged. Its promises that a registered row starts unverified, and that only `Auth.VerifyOtp` verifies a user, hold only for a `type` without SQL syntax. This is a defect of the source: an injection that bypasses the OTP check.
- Auth.Register: a `type` that names another column of `tbl_user` (`schema/schema.js:156-173`) answers 500 in the model. For a column the statement already names (`name`, `gender`, `dob`, `password`, `otp`, `otp_expire_time`, `isNotify`), MySQL does refuse the duplicate. For `id`, `role`, `isVerify` and the other columns, MySQL may accept the phone value and insert an unreachable row. Which of these happens depends on the value's type and the SQL mode.
- Auth.Register: INSERT failures caused by column limits answer 500 with no row in the source, but 201 in the model. These are a `phone` longer than VARCHAR(15), an `email` or `name` longer than 100 characters, a `gender` longer than 10, an invalid `dob`, a non-numeric text `isNotify`, and an `isNotify` number outside -128..127, which TINYINT(1) (`schema/schema.js:166`) rejects in strict SQL mode. The model does not carry column widths or the unused fields.
- JSON values of unexpected types are not modelled. Examples are a numeric `otp`, a numeric `categoryName`, an explicit `null` for a field, and a string id that does not parse. Identifiers and codes are strings, ids are naturals, and an absent field is `None`.
- `gender`, `dob` and the stored `isNotify` value of `register`: written to the row but read by no modelled handler.
- `getBestArticles`, `getBestTopics`, `getAllCategories`, `getHospitalById`: single queries with no logic of their own.
- Any 500 answer from a database outage: not modelled.
- Table definitions, ORM models, connection setup, routes and app bootstrap.
- A working database handle for the auth handlers. `controllers/authController.js:1` loads `config/db`, which exports only `{ pool }` (`config/db.js:86`). Each handler then calls `db.promise()`, and `promise` is not a property of that object. As wired, the call throws inside each `try`, so every auth request past its input checks answers 500. `Auth.Register`, `Auth.Login`, `Auth.VerifyOtp` and `Auth.ResendOtp` describe the handlers as they behave with a working mysql2 connection, whose `promise()` yields a query interface. Every 201, 200 and 401 answer of those members rests on that assumption.
- `medicationReminderController.js` and `specialist.controller.js`: CRUD wrappers whose filtering is done in SQL.
- Commented-out code in the article and hospital controllers.
- HospitalSearch.FindHospitals: its contract bounds the page and totals only. The exact window of a page, and the 404 condition, are stated separately: `SearchPageWindow` for pages of 1 or more, `UnusablePageFindsNothing` for NaN and 0, and `NegativePageWindow` for negative pages.
- AuthProperties.RegisterVerifyLogin: assumes the password comparison accepts the hash of the same password. bcrypt guarantees that, but the uninterpreted comparison cannot.

=== FILE: article_properties.dfy ===
/** Properties of the article store that span handlers: the table invariant every
    write keeps, cascade deletion, wholesale replacement of summaries, the category
    name rules, and what the read handlers show after a write. */
module ArticleProperties {
  import opened JsValues
  import opened ArticleStore
  import opened ArticleViews

  /** Any of the write handlers. */
  datatype Request =
    | AddCategoryCall(image: Option<string>, name: Option<string>)
    | UpdateCategoryCall(categoryId: nat, newName: Option<string>, newImage: Option<string>)
    | DeleteCategoryCall(categoryId: nat)
    | AddArticleCall(input: ArticleInput)
    | UpdateArticleCall(articleId: nat, changes: ArticleInput)
    | DeleteArticleCall(articleId: nat)

  function Step(st: Store, req: Request): Change {
    match req
    case AddCategoryCall(image, name) => AddCategory(st, image, name)
    case UpdateCategoryCall(id, name, image) => UpdateCategory(st, id, name, image)
    case DeleteCategoryCall(id) => DeleteCategory(st, id)
    case AddArticleCall(input) => AddArticle(st, input)
    case UpdateArticleCall(id, input) => UpdateArticle(st, id, input)
    case DeleteArticleCall(id) => DeleteArticle(st, id)
  }

  /** Every write handler keeps the table invariant. */
  lemma {:induction false} StepKeepsConsistent(st: Store, req: Request)
    requires Consistent(st)
    ensures Consistent(Step(st, req).store)
  {
    match req
    case AddCategoryCall(image, name) => AddCategoryKeepsConsistent(st, image, name);
    case UpdateCategoryCall(id, name, image) => UpdateCategoryKeepsConsistent(st, id, name, image);
    case DeleteCategoryCall(id) => DeleteCategoryKeepsConsistent(st, id);
    case AddArticleCall(input) => AddArticleKeepsConsistent(st, input);
    case UpdateArticleCall(id, input) => UpdateArticleKeepsConsistent(st, id, input);
    case DeleteArticleCall(id) => DeleteArticleKeepsConsistent(st, id);
  }

  lemma AddCategoryKeepsConsistent(st: Store, image: Option<string>, name: Option<string>)
    requires Consistent(st)
    ensures Consistent(AddCategory(st, image, name).store)
  {
  }

  lemma UpdateCategoryKeepsConsistent(st: Store, id: nat, name: Option<string>, image: Option<string>)
    requires Consistent(st)
    ensures Consistent(UpdateCategory(st, id, name, image).store)
  {
    var r := UpdateCategory(st, id, name, image);
    if r.reply.Success() {
      var cs := r.store.categories;
      forall c1, c2 | c1 in cs && c2 in cs && c1 != c2
        ensures cs[c1].name != cs[c2].name
      {
        if c1 == id || c2 == id {
          var other := if c1 == id then c2 else c1;
          assert cs[other] == st.categories[other];
          if Truthy(name) && name.value != st.categories[id].name {
            assert !NameInUse(st.categories, name.value, Some(id));
          }
        }
      }
    }
  }

  lemma DeleteCategoryKeepsConsistent(st: Store, id: nat)
    requires Consistent(st)
    ensures Consistent(DeleteCategory(st, id).store)
  {
    var r := DeleteCategory(st, id);
    if r.reply.Success() {
      var doomed := ArticlesIn(st, id);
      assert r.store.summaries == DropRows(st.summaries, doomed);
      forall x | x in r.store.summaries
        ensures x.articleId in r.store.articles
      {
        assert x in st.summaries && x.articleId !in doomed;
      }
    }
  }

  lemma AddArticleKeepsConsistent(st: Store, input: ArticleInput)
    requires Consistent(st)
    ensures Consistent(AddArticle(st, input).store)
  {
    var r := AddArticle(st, input);
    if r.reply.Created? {
      var id := st.nextArticleId;
      assert r.store.summaries == st.summaries + RowsFor(id, input.summaries);
    }
  }

  lemma UpdateArticleKeepsConsistent(st: Store, id: nat, input: ArticleInput)
    requires Consistent(st)
    ensures Consistent(UpdateArticle(st, id, input).store)
  {
    var r := UpdateArticle(st, id, input);
    if r.reply.Success() {
      assert r.store.summaries == DropRows(st.summaries, {id}) + RowsFor(id, input.summaries);
    }
  }

  lemma DeleteArticleKeepsConsistent(st: Store, id: nat)
    requires Consistent(st)
    ensures Consistent(DeleteArticle(st, id).store)
  {
  }

  /** In a consistent store a successful `addCategories` adds exactly one category, under
      a fresh id, and the name it used cannot be added a second time. */
  lemma AddCategoryAddsExactlyOne(st: Store, image: Option<string>, name: Option<string>)
    requires Consistent(st)
    requires AddCategory(st, image, name).reply.Created?
    ensures var r := AddCategory(st, image, name);
            && r.reply.id !in st.categories
            && r.store.categories.Keys == st.categories.Keys + {r.reply.id}
            && |r.store.categories| == |st.categories| + 1
            && AddCategory(r.store, image, name).reply == NameTaken
  {
    var r := AddCategory(st, image, name);
    assert r.store.categories[r.reply.id].name == name.value;
  }

  /** Updating a category a second time with the same body changes nothing more: the
      handler is idempotent. */
  lemma UpdateCategoryIdempotent(st: Store, id: nat, name: Option<string>, image: Option<string>)
    ensures var once := UpdateCategory(st, id, name, image);
            var twice := UpdateCategory(once.store, id, name, image);
            twice.store == once.store
  {
    var once := UpdateCategory(st, id, name, image);
    if once.reply.Success() {
      var twice := UpdateCategory(once.store, id, name, image);
      assert twice.reply.Success();
      assert twice.store.categories == once.store.categories;
    }
  }

  /** An update that supplies neither a name nor an image leaves the store exactly as it
      was, whether or not the category exists. */
  lemma EmptyCategoryUpdateChangesNothing(st: Store, id: nat)
    ensures UpdateCategory(st, id, None, None).store == st
  {
    var r := UpdateCategory(st, id, None, None);
    if id in st.categories {
      assert r.store.categories == st.categories;
    }
  }

  /** After a successful `updateArticle` the article's summaries are exactly the supplied
      list, and every other article keeps its own summaries. */
  lemma {:induction false} UpdateArticleReplacesSummaries(st: Store, id: nat, input: ArticleInput, other: nat)
    requires UpdateArticle(st, id, input).reply.Success()
    ensures var after := UpdateArticle(st, id, input).store;
            && SummariesOf(after.summaries, id) == input.summaries
            && (other != id ==> SummariesOf(after.summaries, other) == SummariesOf(st.summaries, other))
  {
    ReplacedSummariesOf(st.summaries, id, input.summaries, id);
    ReplacedSummariesOf(st.summaries, id, input.summaries, other);
  }

  /** Replacing article `a`'s rows by rows for `ss` gives `a` exactly `ss` and leaves
      every other article's summaries alone. */
  lemma ReplacedSummariesOf(rows: seq<SummaryRow>, a: nat, ss: seq<Summary>, b: nat)
    ensures SummariesOf(DropRows(rows, {a}) + RowsFor(a, ss), b)
              == if b == a then ss else SummariesOf(rows, b)
  {
    SummariesOfAppend(DropRows(rows, {a}), RowsFor(a, ss), b);
    SummariesOfDropRows(rows, {a}, b);
    SummariesOfRowsFor(a, ss, b);
  }

  /** A successful `deleteCategory` takes every article of the category and all their
      summaries with it; articles of other categories, and their summaries, are kept. */
  lemma {:induction false} DeleteCategoryCascades(st: Store, id: nat, a: nat)
    requires DeleteCategory(st, id).reply.Success()
    requires a in st.articles
    ensures var after := DeleteCategory(st, id).store;
            if st.articles[a].categoryId == Some(id) then
              a !in after.articles && SummariesOf(after.summaries, a) == []
            else
              a in after.articles && SummariesOf(after.summaries, a) == SummariesOf(st.summaries, a)
  {
    SummariesOfDropRows(st.summaries, ArticlesIn(st, id), a);
  }

  /** A successful `deleteArticle` removes the article's summaries and nobody else's. */
  lemma {:induction false} DeleteArticleRemovesSummaries(st: Store, id: nat, other: nat)
    requires DeleteArticle(st, id).reply.Success()
    ensures var after := DeleteArticle(st, id).store;
            && SummariesOf(after.summaries, id) == []
            && (other != id ==> SummariesOf(after.summaries, other) == SummariesOf(st.summaries, other))
  {
    SummariesOfDropRows(st.summaries, {id}, id);
    SummariesOfDropRows(st.summaries, {id}, other);
  }

  /** Deleting is final: a second `deleteArticle` for the same id answers 404. */
  lemma DeleteArticleTwiceIsNotFound(st: Store, id: nat)
    ensures var once := DeleteArticle(st, id);
            DeleteArticle(once.store, id).reply == NotFound
  {
  }

  /** In a consistent store the flattened category name is null exactly for articles
      without a category. */
  lemma {:induction false} CategoryNameNullIffUncategorised(st: Store, id: nat)
    requires Consistent(st) && id in st.articles
    ensures CategoryNameOf(st, st.articles[id]).None? <==> st.articles[id].categoryId.None?
  {
    var a := st.articles[id];
    if a.categoryId.Some? {
      assert a.categoryId.value in st.categories;
    }
  }

  /** The detail view after a successful `updateArticle` shows the merged fields and
      exactly the supplied summaries. */
  lemma {:induction false} DetailAfterUpdate(st: Store, id: nat, input: ArticleInput)
    requires UpdateArticle(st, id, input).reply.Success()
    ensures var after := UpdateArticle(st, id, input).store;
            var merged := Merged(st.articles[id], input);
            ArticleDetail(after, id) == Detail(id, merged, CategoryNameOf(after, merged), input.summaries)
  {
    UpdateArticleReplacesSummaries(st, id, input, id);
  }

  /** After a successful `deleteCategory` no article of that category can be fetched. */
  lemma DetailAfterCategoryDelete(st: Store, id: nat, a: nat)
    requires DeleteCategory(st, id).reply.Success()
    requires a in st.articles && st.articles[a].categoryId == Some(id)
    ensures ArticleDetail(DeleteCategory(st, id).store, a) == ArticleNotFound
  {
  }
}

=== FILE: article_store.dfy ===
/** The category / article / summary store behind `controllers/article.controller.js`:
    the write handlers as pure step functions over an in-memory copy of the three
    tables, and the invariant they keep. */
module ArticleStore {
  import opened JsValues

  /** An `article_categorys` row. */
  datatype Category = Category(image: Option<string>, name: string)

  /** An `articles` row (timestamps are not modelled). */
  datatype Article = Article(
    image: Option<string>,
    categoryId: Option<nat>,
    publishDate: Option<string>,
    topicName: Option<string>,
    title: string,
    author: Option<string>,
    bestTopic: bool,
    bestArticle: bool)

  /** The content columns of an `article_summaries` row. */
  datatype Summary = Summary(image: Option<string>, sectionTitle: Option<string>, content: Option<string>)

  /** An `article_summaries` row: a summary and the article it belongs to. */
  datatype SummaryRow = SummaryRow(articleId: nat, summary: Summary)

  /** The three tables, keyed by their auto-increment ids; summary rows are kept in
      insertion order, the order the database returns them in. */
  datatype Store = Store(
    categories: map<nat, Category>,
    articles: map<nat, Article>,
    summaries: seq<SummaryRow>,
    nextCategoryId: nat,
    nextArticleId: nat)

  /** What a write handler answers. */
  datatype Reply =
    | Created(id: nat)
    | Done
    | NameRequired
    | NameTaken
    | CategoryMissing
    | NameClash
    | NotFound
    | Failed
  {
    function Status(): int {
      match this
      case Created(_) => 201
      case Done => 200
      case NameRequired => 400
      case NameTaken => 409
      case CategoryMissing => 201
      case NameClash => 201
      case NotFound => 404
      case Failed => 500
    }

    /** The `success` field of the JSON body. */
    predicate Success() {
      Created? || Done?
    }
  }

  datatype Change = Change(reply: Reply, store: Store)

  /** The request body of `addArticle` and `updateArticle`; `None` is an absent field,
      and a `summaries` value that is absent or not an array is the empty list. */
  datatype ArticleInput = ArticleInput(
    image: Option<string>,
    categoryId: Option<nat>,
    publishDate: Option<string>,
    topicName: Option<string>,
    title: Option<string>,
    author: Option<string>,
    bestTopic: Option<bool>,
    bestArticle: Option<bool>,
    summaries: seq<Summary>)

  /** The invariant of the three tables: ids are below their counters, category names
      are non-empty and unique, an article's category exists, and every summary row
      belongs to an existing article. */
  predicate Consistent(st: Store) {
    && (forall c :: c in st.categories ==> c < st.nextCategoryId && st.categories[c].name != "")
    && (forall c1, c2 :: c1 in st.categories && c2 in st.categories && c1 != c2 ==>
          st.categories[c1].name != st.categories[c2].name)
    && (forall a :: a in st.articles ==> a < st.nextArticleId)
    && (forall a :: a in st.articles && st.articles[a].categoryId.Some? ==>
          st.articles[a].categoryId.value in st.categories)
    && (forall x :: x in st.summaries ==> x.articleId in st.articles)
  }

  /** Some category other than `except` is called `name`. */
  predicate NameInUse(categories: map<nat, Category>, name: string, except: Option<nat>) {
    exists c :: c in categories && categories[c].name == name && except != Some(c)
  }

  // ---------------------------------------------------------------------------
  // Summary rows

  /** The summaries of article `a`, in row order. */
  function SummariesOf(rows: seq<SummaryRow>, a: nat): (r: seq<Summary>)
    ensures |r| <= |rows|
  {
    if rows == [] then []
    else (if rows[0].articleId == a then [rows[0].summary] else []) + SummariesOf(rows[1..], a)
  }

  /** The rows not belonging to any article in `gone`, in their order. */
  function DropRows(rows: seq<SummaryRow>, gone: set<nat>): (r: seq<SummaryRow>)
    ensures forall x :: x in r <==> x in rows && x.articleId !in gone
  {
    if rows == [] then []
    else (if rows[0].articleId in gone then [] else [rows[0]]) + DropRows(rows[1..], gone)
  }

  /** `summaries.map(s => ({ articleId, ...s }))`: rows for article `a`. */
  function RowsFor(a: nat, ss: seq<Summary>): (r: seq<SummaryRow>)
    ensures |r| == |ss|
    ensures forall i :: 0 <= i < |r| ==> r[i] == SummaryRow(a, ss[i])
    ensures forall x :: x in r ==> x.articleId == a
  {
    seq(|ss|, i requires 0 <= i < |ss| => SummaryRow(a, ss[i]))
  }

  lemma {:induction false} SummariesOfAppend(x: seq<SummaryRow>, y: seq<SummaryRow>, a: nat)
    ensures SummariesOf(x + y, a) == SummariesOf(x, a) + SummariesOf(y, a)
    decreases |x|
  {
    if x == [] {
      assert x + y == y;
    } else {
      var head := if x[0].articleId == a then [x[0].summary] else [];
      assert (x + y)[0] == x[0];
      assert (x + y)[1..] == x[1..] + y;
      assert SummariesOf(x + y, a) == head + SummariesOf(x[1..] + y, a);
      SummariesOfAppend(x[1..], y, a);
    }
  }

  /** Rows written for article `a` are exactly its summaries, and nobody else's. */
  lemma {:induction false} SummariesOfRowsFor(a: nat, ss: seq<Summary>, b: nat)
    ensures SummariesOf(RowsFor(a, ss), b) == if a == b then ss else []
    decreases |ss|
  {
    if ss != [] {
      assert RowsFor(a, ss)[1..] == RowsFor(a, ss[1..]);
      SummariesOfRowsFor(a, ss[1..], b);
    }
  }

  /** Dropping the rows of the articles in `gone` empties their summaries and leaves
      every other article's summaries as they were. */
  lemma {:induction false} SummariesOfDropRows(rows: seq<SummaryRow>, gone: set<nat>, a: nat)
    ensures SummariesOf(DropRows(rows, gone), a) == if a in gone then [] else SummariesOf(rows, a)
    decreases |rows|
  {
    if rows != [] {
      var kept := if rows[0].articleId in gone then [] else [rows[0]];
      assert DropRows(rows, gone) == kept + DropRows(rows[1..], gone);
      SummariesOfAppend(kept, DropRows(rows[1..], gone), a);
      SummariesOfDropRows(rows[1..], gone, a);
    }
  }

  // ---------------------------------------------------------------------------
  // Categories

  /** `exports.addCategories`: a falsy name is 400, a name already used is 409, and
      otherwise the category is created under the next id. */
  function AddCategory(st: Store, image: Option<string>, name: Option<string>): (r: Change)
    ensures r.reply == NameRequired <==> !Truthy(name)
    ensures r.reply == NameTaken <==> Truthy(name) && NameInUse(st.categories, name.value, None)
    ensures r.reply.Created? <==> Truthy(name) && !NameInUse(st.categories, name.value, None)
    ensures !r.reply.Created? ==> r.store == st
    ensures r.reply.Created? ==>
              && r.reply.id == st.nextCategoryId
              && r.store == st.(categories := st.categories[r.reply.id := Category(image, name.value)],
                                nextCategoryId := st.nextCategoryId + 1)
  {
    if !Truthy(name) then Change(NameRequired, st)
    else if NameInUse(st.categories, name.value, None) then Change(NameTaken, st)
    else
      var id := st.nextCategoryId;
      Change(Created(id), st.(categories := st.categories[id := Category(image, name.value)],
                              nextCategoryId := id + 1))
  }

  /** `exports.updateCategory`. A missing id, or a new name that another category
      already has, answers 201 with `success: false` and changes nothing; otherwise a
      falsy name or image keeps the stored value and a truthy one replaces it. */
  function UpdateCategory(st: Store, id: nat, name: Option<string>, image: Option<string>): (r: Change)
    ensures r.reply == CategoryMissing <==> id !in st.categories
    ensures r.reply == NameClash <==>
              && id in st.categories
              && Truthy(name) && name.value != st.categories[id].name
              && NameInUse(st.categories, name.value, Some(id))
    ensures r.reply.Success() ==> r.reply == Done && id in st.categories
    ensures r.reply in {CategoryMissing, NameClash, Done}
    ensures !r.reply.Success() ==> r.store == st
    ensures r.reply.Success() ==>
              var cur := st.categories[id];
              && r.store.categories.Keys == st.categories.Keys
              && r.store.categories[id].name == (if Truthy(name) then name.value else cur.name)
              && r.store.categories[id].image == (if Truthy(image) then image else cur.image)
              && (forall c :: c in st.categories && c != id ==> r.store.categories[c] == st.categories[c])
              && r.store == st.(categories := r.store.categories)
  {
    if id !in st.categories then Change(CategoryMissing, st)
    else
      var cur := st.categories[id];
      if Truthy(name) && name.value != cur.name && NameInUse(st.categories, name.value, Some(id)) then
        Change(NameClash, st)
      else
        var updated := Category(if Truthy(image) then image else cur.image,
                                if Truthy(name) then name.value else cur.name);
        Change(Done, st.(categories := st.categories[id := updated]))
  }

  /** The ids of the articles filed under category `id`. */
  function ArticlesIn(st: Store, id: nat): set<nat> {
    set a | a in st.articles && st.articles[a].categoryId == Some(id)
  }

  /** `exports.deleteCategory`: 404 for a missing id; otherwise the category goes, and
      through the cascading hooks every article filed under it and every summary of
      those articles goes with it. */
  function DeleteCategory(st: Store, id: nat): (r: Change)
    ensures r.reply == NotFound <==> id !in st.categories
    ensures r.reply.Success() <==> id in st.categories
    ensures r.reply.Success() ==> r.reply == Done
    ensures !r.reply.Success() ==> r.store == st
    ensures r.reply.Success() ==>
              && r.store.categories.Keys == st.categories.Keys - {id}
              && (forall c :: c in r.store.categories ==> r.store.categories[c] == st.categories[c])
              && (forall a :: a in r.store.articles <==> a in st.articles && st.articles[a].categoryId != Some(id))
              && (forall a :: a in r.store.articles ==> r.store.articles[a] == st.articles[a])
              && r.store.nextCategoryId == st.nextCategoryId
              && r.store.nextArticleId == st.nextArticleId
  {
    if id !in st.categories then Change(NotFound, st)
    else
      var doomed := ArticlesIn(st, id);
      Change(Done, st.(categories := st.categories - {id},
                       articles := st.articles - doomed,
                       summaries := DropRows(st.summaries, doomed)))
  }

  // ---------------------------------------------------------------------------
  // Articles

  /** The article a create stores: absent flags default to false. */
  function NewArticle(input: ArticleInput): Article
    requires input.title.Some?
  {
    Article(input.image, input.categoryId, input.publishDate, input.topicName, input.title.value,
            input.author, input.bestTopic.GetOr(false), input.bestArticle.GetOr(false))
  }

  /** A supplied field replaces the stored one; an absent one is left as it is. */
  function Override<T>(current: Option<T>, supplied: Option<T>): (v: Option<T>)
    ensures supplied.Some? ==> v == supplied
    ensures supplied.None? ==> v == current
  {
    if supplied.Some? then supplied else current
  }

  /** The article an update stores: supplied fields replace, absent ones are kept, and
      the two flags are written every time, as false when absent. */
  function Merged(current: Article, input: ArticleInput): Article {
    Article(Override(current.image, input.image),
            Override(current.categoryId, input.categoryId),
            Override(current.publishDate, input.publishDate),
            Override(current.topicName, input.topicName),
            input.title.GetOr(current.title),
            Override(current.author, input.author),
            input.bestTopic.GetOr(false),
            input.bestArticle.GetOr(false))
  }

  /** The supplied category id names no category: the foreign key refuses the write. */
  predicate DanglingCategory(st: Store, input: ArticleInput) {
    input.categoryId.Some? && input.categoryId.value !in st.categories
  }

  /** `exports.addArticle`: a missing title (the ORM model declares it `allowNull: false`)
      or an unknown category fails with 500 and writes nothing; otherwise the article is created under the
      next id and its summaries are written after the existing rows. */
  function AddArticle(st: Store, input: ArticleInput): (r: Change)
    ensures r.reply == Failed <==> input.title.None? || DanglingCategory(st, input)
    ensures r.reply.Created? <==> input.title.Some? && !DanglingCategory(st, input)
    ensures !r.reply.Created? ==> r.store == st
    ensures r.reply.Created? ==>
              && r.reply.id == st.nextArticleId
              && r.store.categories == st.categories
              && r.store.articles == st.articles[r.reply.id := NewArticle(input)]
              && r.store.nextArticleId == st.nextArticleId + 1
              && |r.store.summaries| == |st.summaries| + |input.summaries|
              && r.store.summaries[..|st.summaries|] == st.summaries
              && r.store.summaries[|st.summaries|..] == RowsFor(r.reply.id, input.summaries)
  {
    if input.title.None? || DanglingCategory(st, input) then Change(Failed, st)
    else
      var id := st.nextArticleId;
      var rows := st.summaries + RowsFor(id, input.summaries);
      assert rows[..|st.summaries|] == st.summaries;
      Change(Created(id), st.(articles := st.articles[id := NewArticle(input)],
                              summaries := rows,
                              nextArticleId := id + 1))
  }

  /** `exports.updateArticle`: 404 for a missing article; 500 and no write when the new
      category does not exist; otherwise the fields are merged, the article's old
      summary rows are deleted and the supplied ones written in their place. */
  function UpdateArticle(st: Store, id: nat, input: ArticleInput): (r: Change)
    ensures r.reply == NotFound <==> id !in st.articles
    ensures r.reply == Failed <==> id in st.articles && DanglingCategory(st, input)
    ensures r.reply.Success() <==> id in st.articles && !DanglingCategory(st, input)
    ensures r.reply.Success() ==> r.reply == Done
    ensures !r.reply.Success() ==> r.store == st
    ensures r.reply.Success() ==>
              && r.store.categories == st.categories
              && r.store.articles == st.articles[id := Merged(st.articles[id], input)]
              && r.store.nextCategoryId == st.nextCategoryId
              && r.store.nextArticleId == st.nextArticleId
  {
    if id !in st.articles then Change(NotFound, st)
    else if DanglingCategory(st, input) then Change(Failed, st)
    else
      Change(Done, st.(articles := st.articles[id := Merged(st.articles[id], input)],
                       summaries := DropRows(st.summaries, {id}) + RowsFor(id, input.summaries)))
  }

  /** `exports.deleteArticle`: 404 for a missing article; otherwise its summaries and
      then the article itself are deleted. */
  function DeleteArticle(st: Store, id: nat): (r: Change)
    ensures r.reply == NotFound <==> id !in st.articles
    ensures r.reply.Success() <==> id in st.articles
    ensures r.reply.Success() ==> r.reply == Done
    ensures !r.reply.Success() ==> r.store == st
    ensures r.reply.Success() ==>
              && r.store.categories == st.categories
              && r.store.articles.Keys == st.articles.Keys - {id}
              && (forall a :: a in r.store.articles ==> r.store.articles[a] == st.articles[a])
              && forall x :: x in r.store.summaries <==> x in st.summaries && x.articleId != id
  {
    if id !in st.articles then Change(NotFound, st)
    else Change(Done, st.(articles := st.articles - {id}, summaries := DropRows(st.summaries, {id})))
  }
}

=== FILE: article_views.dfy ===
/** The read handlers of `controllers/article.controller.js` over the store: the three
    paginated listings, the detail view, and the flattened category name. The
    `created_at DESC` order and the `LIKE` search are computed by the database; they
    enter the model as the sequence of article ids the query yields. */
module ArticleViews {
  import opened JsValues
  import opened Pagination
  import opened ArticleStore

  /** `article.category?.categoryName || null`: the name of the article's category, or
      null when it has none, the category is gone, or the name is empty. */
  function CategoryNameOf(st: Store, a: Article): (n: Option<string>)
    ensures n.Some? <==>
              && a.categoryId.Some?
              && a.categoryId.value in st.categories
              && st.categories[a.categoryId.value].name != ""
    ensures n.Some? ==> n.value == st.categories[a.categoryId.value].name && n.value != ""
  {
    if a.categoryId.None? || a.categoryId.value !in st.categories then None
    else
      var name := st.categories[a.categoryId.value].name;
      if name == "" then None else Some(name)
  }

  /** No id occurs twice. */
  predicate Distinct(ids: seq<nat>) {
    forall i, j :: 0 <= i < j < |ids| ==> ids[i] != ids[j]
  }

  /** `order` is an ordering of the article table: every stored article exactly once,
      and nothing else. This is what a query over the whole table returns. */
  predicate OrdersTable(st: Store, order: seq<nat>) {
    && Distinct(order)
    && (forall i :: 0 <= i < |order| ==> order[i] in st.articles)
    && (forall id :: id in st.articles ==> id in order)
  }

  /** The ids of the stored articles satisfying `keep`. */
  function Stored(st: Store, keep: Article -> bool): set<nat> {
    set id | id in st.articles && keep(st.articles[id])
  }

  /** The ids among `order` that name stored articles satisfying `keep`, in that order. */
  function Present(st: Store, order: seq<nat>, keep: Article -> bool): (r: seq<nat>)
    ensures |r| <= |order|
    ensures Distinct(order) ==> Distinct(r)
    ensures forall i :: 0 <= i < |r| ==> r[i] in st.articles && keep(st.articles[r[i]])
    ensures forall id :: id in r <==> id in order && id in st.articles && keep(st.articles[id])
  {
    if order == [] then []
    else
      var id := order[0];
      (if id in st.articles && keep(st.articles[id]) then [id] else []) + Present(st, order[1..], keep)
  }

  /** Over an ordering of the table, the filtered ids are as many as the stored articles
      satisfying the filter: `findAndCountAll`'s count and its rows agree. */
  lemma {:induction false} PresentCountsStored(st: Store, order: seq<nat>, keep: Article -> bool)
    requires OrdersTable(st, order)
    ensures |Present(st, order, keep)| == |Stored(st, keep)|
  {
    var r := Present(st, order, keep);
    DistinctCount(r);
    assert IdSet(r) == Stored(st, keep);
  }

  /** The ids occurring in `ids`. */
  function IdSet(ids: seq<nat>): set<nat> {
    set id | id in ids
  }

  /** A sequence without repetitions has as many elements as its set of elements. */
  lemma {:induction false} DistinctCount(ids: seq<nat>)
    requires Distinct(ids)
    ensures |IdSet(ids)| == |ids|
    decreases |ids|
  {
    if ids != [] {
      DistinctCount(ids[1..]);
      assert ids[0] !in IdSet(ids[1..]);
      assert IdSet(ids) == {ids[0]} + IdSet(ids[1..]);
    } else {
      assert IdSet(ids) == {};
    }
  }

  /** `where: { categoryId }` with a parsed integer id. */
  predicate FiledUnder(a: Article, c: int) {
    a.categoryId.Some? && a.categoryId.value == c
  }

  /** The query rows of `where: { categoryId }`: the category's stored articles, in the
      order `order` lists them. */
  function Filed(st: Store, c: int, order: seq<nat>): (ids: seq<nat>)
    ensures forall i :: 0 <= i < |ids| ==> ids[i] in st.articles && FiledUnder(st.articles[ids[i]], c)
    ensures OrdersTable(st, order) ==> |ids| == |Stored(st, a => FiledUnder(a, c))|
  {
    var ids := Present(st, order, a => FiledUnder(a, c));
    if OrdersTable(st, order) then
      PresentCountsStored(st, order, a => FiledUnder(a, c));
      ids
    else ids
  }

  /** A row of `getArticlesByCategory`, with the category name flattened into it. */
  datatype Card = Card(
    articleId: nat,
    image: Option<string>,
    title: string,
    publishDate: Option<string>,
    categoryId: Option<nat>,
    categoryName: Option<string>)

  function CardOf(st: Store, id: nat): Card
    requires id in st.articles
  {
    var a := st.articles[id];
    Card(id, a.image, a.title, a.publishDate, a.categoryId, CategoryNameOf(st, a))
  }

  function Cards(st: Store, ids: seq<nat>): (cs: seq<Card>)
    requires forall i :: 0 <= i < |ids| ==> ids[i] in st.articles
    ensures |cs| == |ids|
    ensures forall i :: 0 <= i < |cs| ==> cs[i] == CardOf(st, ids[i])
  {
    seq(|ids|, i requires 0 <= i < |ids| && ids[i] in st.articles => CardOf(st, ids[i]))
  }

  datatype CategoryPage =
    | InvalidCategory
    | CategoryPage(listing: Listing<Card>)
  {
    function Status(): int {
      match this
      case InvalidCategory => 400
      case CategoryPage(l) => if l.QueryFailed? then 500 else 200
    }
  }

  /** `exports.getArticlesByCategory`: a category id that does not parse is 400 before
      any query; otherwise one page of two of the category's articles, newest first. */
  function ArticlesByCategory(st: Store, categoryParam: ParsedInt, pageParam: ParsedInt,
                              newestFirst: seq<nat>): (r: CategoryPage)
    requires OrdersTable(st, newestFirst)
    ensures r.InvalidCategory? <==> categoryParam.NaN?
    ensures r.CategoryPage? ==> (r.listing.Listing? <==> PageOrOne(pageParam) >= 1)
    ensures r.CategoryPage? && r.listing.Listing? ==>
              var filed := Filed(st, categoryParam.n, newestFirst);
              var page := PageOrOne(pageParam);
              var shown := filed[Min((page - 1) * SmallPage, |filed|)..Min(page * SmallPage, |filed|)];
              && r.listing.currentPage == page
              && r.listing.totalPages == TotalPages(|filed|, SmallPage)
              && r.listing.items == Cards(st, shown)
              && (|shown| > 0 <==> page <= r.listing.totalPages)
  {
    if categoryParam.NaN? then InvalidCategory
    else
      var filed := Filed(st, categoryParam.n, newestFirst);
      CardsListing(st, filed, pageParam);
      CategoryPage(ListPage(Cards(st, filed), pageParam, SmallPage))
  }

  /** The listing of the cards of `ids` is the cards of the requested page's window. */
  lemma CardsListing(st: Store, ids: seq<nat>, pageParam: ParsedInt)
    requires forall i :: 0 <= i < |ids| ==> ids[i] in st.articles
    ensures var l := ListPage(Cards(st, ids), pageParam, SmallPage);
            var page := PageOrOne(pageParam);
            l.Listing? ==>
              var shown := ids[Min((page - 1) * SmallPage, |ids|)..Min(page * SmallPage, |ids|)];
              && l.items == Cards(st, shown)
              && (|shown| > 0 <==> page <= l.totalPages)
  {
    var l := ListPage(Cards(st, ids), pageParam, SmallPage);
    if l.Listing? {
      CardsPage(st, ids, l.currentPage);
      assert l == ListPage(Cards(st, ids), Num(l.currentPage), SmallPage);
    }
  }

  /** Page `page` of the cards of `ids` holds the cards of the ids in that page's window. */
  lemma CardsPage(st: Store, ids: seq<nat>, page: int)
    requires page >= 1
    requires forall i :: 0 <= i < |ids| ==> ids[i] in st.articles
    ensures var l := ListPage(Cards(st, ids), Num(page), SmallPage);
            var shown := ids[Min((page - 1) * SmallPage, |ids|)..Min(page * SmallPage, |ids|)];
            && l.Listing?
            && l.totalPages == TotalPages(|ids|, SmallPage)
            && l.items == Cards(st, shown)
            && (|shown| > 0 <==> page <= l.totalPages)
  {
    PageContents(Cards(st, ids), page, SmallPage);
  }

  /** `exports.getArticles`: one page of five of all articles, newest first. */
  function ArticleList(st: Store, pageParam: ParsedInt, newestFirst: seq<nat>): (l: Listing<nat>)
    requires OrdersTable(st, newestFirst)
    ensures l.Listing? <==> PageOrOne(pageParam) >= 1
    ensures l.Listing? ==>
              var all := Present(st, newestFirst, _ => true);
              && l.currentPage == PageOrOne(pageParam)
              && l.totalPages == TotalPages(|st.articles|, ArticlePage)
              && l.items == all[Min((l.currentPage - 1) * ArticlePage, |all|)..Min(l.currentPage * ArticlePage, |all|)]
              && (|l.items| > 0 <==> l.currentPage <= l.totalPages)
              && forall k :: 0 <= k < |l.items| ==> l.items[k] in st.articles
  {
    var all := Present(st, newestFirst, _ => true);
    PresentCountsStored(st, newestFirst, _ => true);
    assert Stored(st, _ => true) == st.articles.Keys;
    var l := ListPage(all, pageParam, ArticlePage);
    if l.Listing? then
      PageContents(all, l.currentPage, ArticlePage);
      assert l == ListPage(all, Num(l.currentPage), ArticlePage);
      assert forall k :: 0 <= k < |l.items| ==> l.items[k] in all;
      l
    else l
  }

  /** `exports.getArticleBySearch`: one page of two of the articles the search query
      matched, newest first. */
  function ArticleSearch(pageParam: ParsedInt, matched: seq<nat>): (l: Listing<nat>)
    ensures l.Listing? <==> PageOrOne(pageParam) >= 1
    ensures l.Listing? ==>
              && l.currentPage == PageOrOne(pageParam)
              && l.totalPages == TotalPages(|matched|, SmallPage)
              && l.items == matched[Min((l.currentPage - 1) * SmallPage, |matched|)..Min(l.currentPage * SmallPage, |matched|)]
              && (|l.items| > 0 <==> l.currentPage <= l.totalPages)
  {
    var l := ListPage(matched, pageParam, SmallPage);
    if l.Listing? then
      PageContents(matched, l.currentPage, SmallPage);
      assert l == ListPage(matched, Num(l.currentPage), SmallPage);
      l
    else l
  }

  datatype Detail =
    | ArticleNotFound
    | Detail(articleId: nat, article: Article, categoryName: Option<string>, summaries: seq<Summary>)
  {
    function Status(): int {
      if ArticleNotFound? then 404 else 200
    }
  }

  /** `exports.getArticleById`: 404 for a missing article; otherwise the article with
      its flattened category name and its summaries. */
  function ArticleDetail(st: Store, id: nat): (d: Detail)
    ensures d.ArticleNotFound? <==> id !in st.articles
    ensures d.Detail? ==>
              && d.articleId == id
              && d.article == st.articles[id]
              && d.categoryName == CategoryNameOf(st, st.articles[id])
              && d.summaries == SummariesOf(st.summaries, id)
  {
    if id !in st.articles then ArticleNotFound
    else Detail(id, st.articles[id], CategoryNameOf(st, st.articles[id]), SummariesOf(st.summaries, id))
  }
}

=== FILE: auth.dfy ===
/** Registration, login gating and OTP verification over the user table
    (`controllers/authController.js`). Each handler is a step function from the
    user store, the request, the clock reading and a code draw to a response, the
    new store and the notice that would be dispatched. */
module Auth {
  import opened JsValues
  import opened Otp

  /** The column a user is found by: email or phone. */
  datatype Identifier = Email(address: string) | Phone(number: string)

  /** A row of `tbl_user` as this flow sees it; `verified` is `isVerify = 1`. */
  datatype User = User(
    id: nat,
    name: string,
    ident: Identifier,
    passwordHash: string,
    verified: bool,
    challenge: Challenge)

  /** The user table: rows reachable by identifier, and the next auto-increment id. */
  datatype Users = Users(rows: map<Identifier, User>, nextId: nat)

  /** Password hashing, comparison and token signing, supplied from outside. */
  datatype Crypto = Crypto(
    hash: string -> string,
    matches: (string, string) -> bool,
    sign: User -> string)

  datatype Channel = Mail | Sms

  /** A code handed to the mail transport or the SMS gateway. */
  datatype Notice = Notice(channel: Channel, code: string)

  /** Every response the four handlers produce. */
  datatype Response =
    | MissingFields
    | NotificationsDisabled
    | AlreadyExists
    | Registered(userId: nat)
    | NotFound
    | InvalidPassword
    | RequireOtp(email: Option<string>, phone: Option<string>, userId: nat)
    | LoggedIn(id: nat, name: string, email: Option<string>, token: string)
    | OtpExpired
    | InvalidOtp
    | OtpVerified
    | AlreadyVerified
    | OtpResent
    | ServerError
  {
    function Status(): int {
      match this
      case MissingFields => 400
      case NotificationsDisabled => 403
      case AlreadyExists => 409
      case Registered(_) => 201
      case NotFound => 404
      case InvalidPassword => 401
      case RequireOtp(_, _, _) => 401
      case LoggedIn(_, _, _, _) => 200
      case OtpExpired => 400
      case InvalidOtp => 400
      case OtpVerified => 200
      case AlreadyVerified => 400
      case OtpResent => 200
      case ServerError => 500
    }
  }

  datatype Outcome = Outcome(response: Response, users: Users, sent: Option<Notice>)

  /** The `isNotify` field as JSON may carry it. */
  datatype NotifyField = Unset | Number(n: int) | Text(s: string) | Boolean(b: bool)

  datatype RegisterRequest = RegisterRequest(
    kind: Option<string>,
    name: Option<string>,
    email: Option<string>,
    phone: Option<string>,
    password: Option<string>,
    isNotify: NotifyField)

  datatype LoginRequest = LoginRequest(
    kind: Option<string>,
    email: Option<string>,
    phone: Option<string>,
    password: Option<string>)

  datatype VerifyRequest = VerifyRequest(email: Option<string>, phone: Option<string>, otp: Option<string>)

  datatype ResendRequest = ResendRequest(email: Option<string>, phone: Option<string>)

  /** `isNotify === 0 || isNotify === "0"`. */
  predicate NotificationsOff(f: NotifyField) {
    f == Number(0) || f == Text("0")
  }

  /** The row register and login look up: the email column when `type` is "email",
      the phone column otherwise; an absent value is bound as NULL and matches nothing. */
  function KindKey(kind: string, email: Option<string>, phone: Option<string>): (key: Option<Identifier>)
    ensures key.Some? <==> (if kind == "email" then email.Some? else phone.Some?)
    ensures key.Some? ==> key.value == (if kind == "email" then Email(email.value) else Phone(phone.value))
  {
    if kind == "email" then (if email.Some? then Some(Email(email.value)) else None)
    else (if phone.Some? then Some(Phone(phone.value)) else None)
  }

  /** The column the INSERT of `register` writes the identifier into. `type` is spliced
      into the statement as a column name, and MySQL matches column names without regard
      to letter case, so "Phone" names the phone column. Only bare identifiers are
      recognised: any other `type` counts as naming no identifier column. */
  datatype Column = EmailColumn | PhoneColumn | OtherColumn

  /** ASCII letter-case folding of one character. */
  function AsciiLower(c: char): char {
    if 'A' <= c <= 'Z' then (c as int + 32) as char else c
  }

  /** `kind` spells the lower-case column name `column` up to letter case. */
  predicate NamesColumn(kind: string, column: string) {
    |kind| == |column| && forall i :: 0 <= i < |kind| ==> AsciiLower(kind[i]) == column[i]
  }

  function InsertColumn(kind: string): (c: Column)
    ensures c == EmailColumn <==> NamesColumn(kind, "email")
    ensures c == PhoneColumn <==> NamesColumn(kind, "phone") && !NamesColumn(kind, "email")
    ensures kind == "email" ==> c == EmailColumn
    ensures kind == "phone" ==> c == PhoneColumn
  {
    if kind == "email" then
      assert NamesColumn(kind, "email") by { LowerCaseNamesItself(kind); }
      EmailColumn
    else if kind == "phone" then
      assert NamesColumn(kind, "phone") by { LowerCaseNamesItself(kind); }
      assert AsciiLower(kind[0]) != "email"[0];
      PhoneColumn
    else if NamesColumn(kind, "email") then EmailColumn
    else if NamesColumn(kind, "phone") then PhoneColumn
    else OtherColumn
  }

  /** A name without upper-case letters names the column it spells. */
  lemma LowerCaseNamesItself(s: string)
    requires forall i :: 0 <= i < |s| ==> !('A' <= s[i] <= 'Z')
    ensures NamesColumn(s, s)
  {
  }

  /** The identifier the row inserted by `register` can be found by: the value
      `type === "email" ? email : phone`, in the column `type` names. An absent value is
      stored as NULL, which no lookup matches. */
  function StoredKey(kind: string, email: Option<string>, phone: Option<string>): (key: Option<Identifier>)
    requires InsertColumn(kind) != OtherColumn
    ensures kind == "email" || kind == "phone" ==> key == KindKey(kind, email, phone)
    ensures key.Some? ==> (key.value.Email? <==> InsertColumn(kind) == EmailColumn)
  {
    var value := if kind == "email" then email else phone;
    if value.None? then None
    else if InsertColumn(kind) == EmailColumn then Some(Email(value.value))
    else Some(Phone(value.value))
  }

  /** The code dispatch of `register` and `login`: mail when `type` is exactly "email",
      SMS when it is exactly "phone", and nothing for any other `type`. */
  function Dispatch(kind: string, code: string): (n: Option<Notice>)
    ensures n.Some? <==> kind == "email" || kind == "phone"
    ensures n.Some? ==> n.value.code == code && (n.value.channel == Mail <==> kind == "email")
  {
    if kind == "email" then Some(Notice(Mail, code))
    else if kind == "phone" then Some(Notice(Sms, code))
    else None
  }

  /** The row verify and resend look up: `email || phone`, by the email column when
      the email is truthy. */
  function ContactKey(email: Option<string>, phone: Option<string>): (key: Identifier)
    requires Truthy(email) || Truthy(phone)
    ensures Truthy(email) ==> key == Email(email.value)
    ensures !Truthy(email) ==> key == Phone(phone.value)
  {
    if Truthy(email) then Email(email.value) else Phone(phone.value)
  }

  function EmailOf(u: User): Option<string> {
    if u.ident.Email? then Some(u.ident.address) else None
  }

  function PhoneOf(u: User): Option<string> {
    if u.ident.Phone? then Some(u.ident.number) else None
  }

  /** The three fields `register` insists on. */
  predicate RegisterFieldsPresent(req: RegisterRequest) {
    Truthy(req.kind) && Truthy(req.password) && Truthy(req.name)
  }

  /** `exports.register`. */
  function Register(users: Users, req: RegisterRequest, crypto: Crypto, draw: CodeDraw, now: int): (o: Outcome)
    ensures !RegisterFieldsPresent(req) ==> o == Outcome(MissingFields, users, None)
    ensures o.response == NotificationsDisabled <==> RegisterFieldsPresent(req) && NotificationsOff(req.isNotify)
    ensures o.response == NotificationsDisabled ==> o.users == users && o.sent == None
    ensures o.response == AlreadyExists <==>
              && RegisterFieldsPresent(req) && !NotificationsOff(req.isNotify)
              && var key := KindKey(req.kind.value, req.email, req.phone);
              && key.Some? && key.value in users.rows
    ensures o.response == AlreadyExists ==> o.users == users && o.sent == None
    ensures o.response.Registered? <==>
              && RegisterFieldsPresent(req) && !NotificationsOff(req.isNotify)
              && var kind := req.kind.value;
              && var key := KindKey(kind, req.email, req.phone);
              && !(key.Some? && key.value in users.rows)
              && InsertColumn(kind) != OtherColumn
              && var stored := StoredKey(kind, req.email, req.phone);
              && !(stored.Some? && stored.value in users.rows)
              && (kind == "email" || kind == "phone" ==> key.Some?)
    ensures o.response.Registered? ==>
              && o.response.userId == users.nextId
              && o.users.nextId == users.nextId + 1
              && (forall k :: k in users.rows ==> k in o.users.rows && o.users.rows[k] == users.rows[k])
              && o.sent == Dispatch(req.kind.value, Issue(draw, now).code)
              && var stored := StoredKey(req.kind.value, req.email, req.phone);
              && (stored.None? ==> o.users.rows == users.rows)
              && (stored.Some? ==>
                    && o.users.rows.Keys == users.rows.Keys + {stored.value}
                    && var u := o.users.rows[stored.value];
                    && u.id == users.nextId && u.ident == stored.value && u.name == req.name.value
                    && u.passwordHash == crypto.hash(req.password.value)
                    && !u.verified
                    && u.challenge == Issue(draw, now))
    ensures o.users.rows != users.rows ==> o.response.Registered?
    ensures o.response.Status() in {400, 403, 409, 201, 500}
  {
    if !RegisterFieldsPresent(req) then
      Outcome(MissingFields, users, None)
    else if NotificationsOff(req.isNotify) then
      Outcome(NotificationsDisabled, users, None)
    else
      var kind := req.kind.value;
      var key := KindKey(kind, req.email, req.phone);
      if key.Some? && key.value in users.rows then
        Outcome(AlreadyExists, users, None)
      else if InsertColumn(kind) == OtherColumn then
        // the INSERT names a column that is not an identifier column
        Outcome(ServerError, users, None)
      else
        var stored := StoredKey(kind, req.email, req.phone);
        if stored.Some? && stored.value in users.rows then
          // the column's UNIQUE index refuses a second row with this value
          Outcome(ServerError, users, None)
        else
          var c := Issue(draw, now);
          var rows :=
            if stored.Some? then
              users.rows[stored.value := User(users.nextId, req.name.value, stored.value,
                                              crypto.hash(req.password.value), false, c)]
            else users.rows;
          var after := Users(rows, users.nextId + 1);
          if (kind == "email" || kind == "phone") && key.None? then
            // the row holds a NULL identifier, and the send to the missing address throws
            Outcome(ServerError, after, None)
          else
            Outcome(Registered(users.nextId), after, Dispatch(kind, c.code))
  }

  /** `exports.login`. */
  function Login(users: Users, req: LoginRequest, crypto: Crypto, draw: CodeDraw, now: int): (o: Outcome)
    ensures o.response == MissingFields <==> !Truthy(req.kind) || !Truthy(req.password)
    ensures o.response == NotFound <==>
              && Truthy(req.kind) && Truthy(req.password)
              && var key := KindKey(req.kind.value, req.email, req.phone);
              && (key.None? || key.value !in users.rows)
    ensures o.response == InvalidPassword <==>
              && Truthy(req.kind) && Truthy(req.password)
              && var key := KindKey(req.kind.value, req.email, req.phone);
              && key.Some? && key.value in users.rows
              && !crypto.matches(req.password.value, users.rows[key.value].passwordHash)
    ensures o.response.LoggedIn? <==>
              && Truthy(req.kind) && Truthy(req.password)
              && var key := KindKey(req.kind.value, req.email, req.phone);
              && key.Some? && key.value in users.rows
              && crypto.matches(req.password.value, users.rows[key.value].passwordHash)
              && users.rows[key.value].verified
    ensures o.response.LoggedIn? ==>
              var u := users.rows[KindKey(req.kind.value, req.email, req.phone).value];
              && o.response == LoggedIn(u.id, u.name, EmailOf(u), crypto.sign(u))
              && o.users == users && o.sent == None
    ensures o.response.RequireOtp? <==>
              && Truthy(req.kind) && Truthy(req.password)
              && var key := KindKey(req.kind.value, req.email, req.phone);
              && key.Some? && key.value in users.rows
              && crypto.matches(req.password.value, users.rows[key.value].passwordHash)
              && !users.rows[key.value].verified
    ensures o.response.RequireOtp? ==>
              var key := KindKey(req.kind.value, req.email, req.phone).value;
              var u := users.rows[key];
              && o.response.userId == u.id
              && o.users == users.(rows := users.rows[key := u.(challenge := Issue(draw, now))])
              && o.sent == Dispatch(req.kind.value, Issue(draw, now).code)
    ensures !o.response.RequireOtp? ==> o.users == users && o.sent == None
    ensures o.response.Status() in {400, 404, 401, 200}
  {
    if !Truthy(req.kind) || !Truthy(req.password) then
      Outcome(MissingFields, users, None)
    else
      var kind := req.kind.value;
      var key := KindKey(kind, req.email, req.phone);
      if key.None? || key.value !in users.rows then
        Outcome(NotFound, users, None)
      else
        var u := users.rows[key.value];
        if !crypto.matches(req.password.value, u.passwordHash) then
          Outcome(InvalidPassword, users, None)
        else if !u.verified then
          var c := Issue(draw, now);
          Outcome(RequireOtp(if kind == "email" then EmailOf(u) else None,
                             if kind == "phone" then PhoneOf(u) else None,
                             u.id),
                  users.(rows := users.rows[key.value := u.(challenge := c)]),
                  Dispatch(kind, c.code))
        else
          Outcome(LoggedIn(u.id, u.name, EmailOf(u), crypto.sign(u)), users, None)
  }

  /** `exports.verifyOtp`. */
  function VerifyOtp(users: Users, req: VerifyRequest, now: int): (o: Outcome)
    ensures o.response == MissingFields <==> !Truthy(req.otp) || (!Truthy(req.email) && !Truthy(req.phone))
    ensures o.response == NotFound <==>
              Truthy(req.otp) && (Truthy(req.email) || Truthy(req.phone))
              && ContactKey(req.email, req.phone) !in users.rows
    ensures o.response == OtpExpired <==>
              && Truthy(req.otp) && (Truthy(req.email) || Truthy(req.phone))
              && var key := ContactKey(req.email, req.phone);
              && key in users.rows && now > users.rows[key].challenge.expiresAt
    ensures o.response == InvalidOtp <==>
              && Truthy(req.otp) && (Truthy(req.email) || Truthy(req.phone))
              && var key := ContactKey(req.email, req.phone);
              && key in users.rows && now <= users.rows[key].challenge.expiresAt
              && req.otp.value != users.rows[key].challenge.code
    ensures o.response == OtpVerified <==>
              && Truthy(req.otp) && (Truthy(req.email) || Truthy(req.phone))
              && var key := ContactKey(req.email, req.phone);
              && key in users.rows && now <= users.rows[key].challenge.expiresAt
              && req.otp.value == users.rows[key].challenge.code
    ensures o.response == OtpVerified ==>
              var key := ContactKey(req.email, req.phone);
              var u := users.rows[key];
              && req.otp.value == u.challenge.code && now <= u.challenge.expiresAt
              && o.users == users.(rows := users.rows[key := u.(verified := true)])
    ensures o.response != OtpVerified ==> o.users == users
    ensures o.sent == None
    ensures o.response.Status() in {400, 404, 200}
  {
    if !Truthy(req.otp) || (!Truthy(req.email) && !Truthy(req.phone)) then
      Outcome(MissingFields, users, None)
    else
      var key := ContactKey(req.email, req.phone);
      if key !in users.rows then
        Outcome(NotFound, users, None)
      else
        var u := users.rows[key];
        match Validate(req.otp.value, u.challenge, now)
        case Expired => Outcome(OtpExpired, users, None)
        case Mismatch => Outcome(InvalidOtp, users, None)
        case Accepted => Outcome(OtpVerified, users.(rows := users.rows[key := u.(verified := true)]), None)
  }

  /** `exports.resendOtp`. */
  function ResendOtp(users: Users, req: ResendRequest, draw: CodeDraw, now: int): (o: Outcome)
    ensures o.response == MissingFields <==> !Truthy(req.email) && !Truthy(req.phone)
    ensures o.response == NotFound <==>
              (Truthy(req.email) || Truthy(req.phone)) && ContactKey(req.email, req.phone) !in users.rows
    ensures o.response == AlreadyVerified <==>
              && (Truthy(req.email) || Truthy(req.phone))
              && var key := ContactKey(req.email, req.phone);
              && key in users.rows && users.rows[key].verified
    ensures o.response == OtpResent <==>
              && (Truthy(req.email) || Truthy(req.phone))
              && var key := ContactKey(req.email, req.phone);
              && key in users.rows && !users.rows[key].verified
    ensures o.response == OtpResent ==>
              var key := ContactKey(req.email, req.phone);
              var c := Issue(draw, now);
              && o.users == users.(rows := users.rows[key := users.rows[key].(challenge := c)])
              && o.sent == Some(Notice(if Truthy(req.email) then Mail else Sms, c.code))
    ensures o.response != OtpResent ==> o.users == users && o.sent == None
  {
    if !Truthy(req.email) && !Truthy(req.phone) then
      Outcome(MissingFields, users, None)
    else
      var key := ContactKey(req.email, req.phone);
      if key !in users.rows then
        Outcome(NotFound, users, None)
      else
        var u := users.rows[key];
        if u.verified then
          Outcome(AlreadyVerified, users, None)
        else
          var c := Issue(draw, now);
          Outcome(OtpResent,
                  users.(rows := users.rows[key := u.(challenge := c)]),
                  Some(Notice(if Truthy(req.email) then Mail else Sms, c.code)))
  }
}

=== FILE: auth_properties.dfy ===
/** Properties of the authentication state machine that span several handlers or
    several calls: the invariant every handler keeps, monotonicity of verification,
    token gating, and the register → verify → login scenario. */
module AuthProperties {
  import opened JsValues
  import opened Otp
  import opened Auth

  /** The invariant of the user table: each row is keyed by its own identifier, ids
      are distinct and below the auto-increment counter, and every stored code is a
      well-formed four-digit code. */
  predicate WellFormed(users: Users) {
    && (forall k :: k in users.rows ==> users.rows[k].ident == k)
    && (forall k :: k in users.rows ==> users.rows[k].id < users.nextId)
    && (forall k1, k2 :: k1 in users.rows && k2 in users.rows && k1 != k2 ==>
          users.rows[k1].id != users.rows[k2].id)
    && (forall k :: k in users.rows ==> WellFormedCode(users.rows[k].challenge.code))
  }

  /** Any of the four endpoints. */
  datatype Request =
    | RegisterCall(register: RegisterRequest)
    | LoginCall(login: LoginRequest)
    | VerifyCall(verify: VerifyRequest)
    | ResendCall(resend: ResendRequest)

  function Step(users: Users, req: Request, crypto: Crypto, draw: CodeDraw, now: int): Outcome {
    match req
    case RegisterCall(r) => Register(users, r, crypto, draw, now)
    case LoginCall(r) => Login(users, r, crypto, draw, now)
    case VerifyCall(r) => VerifyOtp(users, r, now)
    case ResendCall(r) => ResendOtp(users, r, draw, now)
  }

  /** How an existing user may change in one step: identity, name and password are
      fixed, and a verified user stays verified. */
  predicate Evolves(before: User, after: User) {
    && after.id == before.id
    && after.name == before.name
    && after.ident == before.ident
    && after.passwordHash == before.passwordHash
    && (before.verified ==> after.verified)
  }

  /** Every handler keeps the table invariant. */
  lemma {:induction false} StepPreservesWellFormed(users: Users, req: Request, crypto: Crypto, draw: CodeDraw, now: int)
    requires WellFormed(users)
    ensures WellFormed(Step(users, req, crypto, draw, now).users)
  {
    var o := Step(users, req, crypto, draw, now);
    match req
    case RegisterCall(r) =>
      if o.response.Registered? {
        var stored := StoredKey(r.kind.value, r.email, r.phone);
        if stored.Some? {
          InsertKeepsWellFormed(users, o.users.rows[stored.value]);
        }
      } else {
        assert o.users.rows == users.rows && o.users.nextId >= users.nextId;
      }
    case LoginCall(r) =>
      if o.response.RequireOtp? {
        var key := KindKey(r.kind.value, r.email, r.phone).value;
        ReplaceKeepsWellFormed(users, key, o.users.rows[key]);
      }
    case VerifyCall(r) =>
      if o.response == OtpVerified {
        var key := ContactKey(r.email, r.phone);
        ReplaceKeepsWellFormed(users, key, o.users.rows[key]);
      }
    case ResendCall(r) =>
      if o.response == OtpResent {
        var key := ContactKey(r.email, r.phone);
        ReplaceKeepsWellFormed(users, key, o.users.rows[key]);
      }
  }

  /** Adding a row with a fresh identifier and the next id keeps the invariant. */
  lemma InsertKeepsWellFormed(users: Users, u: User)
    requires WellFormed(users)
    requires u.ident !in users.rows && u.id == users.nextId && WellFormedCode(u.challenge.code)
    ensures WellFormed(Users(users.rows[u.ident := u], users.nextId + 1))
  {
  }

  /** Rewriting a row without touching its identifier or id keeps the invariant. */
  lemma ReplaceKeepsWellFormed(users: Users, key: Identifier, u: User)
    requires WellFormed(users)
    requires key in users.rows && u.ident == key && u.id == users.rows[key].id
    requires WellFormedCode(u.challenge.code)
    ensures WellFormed(users.(rows := users.rows[key := u]))
  {
  }

  /** No row is ever removed, no user changes identity, and verification is never
      undone; the auto-increment counter never goes back. */
  lemma StepIsMonotonic(users: Users, req: Request, crypto: Crypto, draw: CodeDraw, now: int)
    ensures var o := Step(users, req, crypto, draw, now);
            && users.rows.Keys <= o.users.rows.Keys
            && users.nextId <= o.users.nextId
            && forall k :: k in users.rows ==> Evolves(users.rows[k], o.users.rows[k])
  {
  }

  /** A stored challenge only ever changes on an unverified user, and then it becomes
      the challenge issued at this step: the new code from this step's draw, expiring
      exactly 60 seconds after `now`. */
  lemma ChallengeReplacedOnlyByIssue(users: Users, req: Request, crypto: Crypto, draw: CodeDraw, now: int)
    ensures var o := Step(users, req, crypto, draw, now);
            forall k :: k in users.rows && o.users.rows[k].challenge != users.rows[k].challenge ==>
              && !users.rows[k].verified
              && o.users.rows[k].challenge == Issue(draw, now)
              && o.users.rows[k].challenge.expiresAt == now + 60 * 1000
  {
  }

  /** A dispatched code is always the freshly issued one, and it is the code now
      stored on some row. */
  lemma NoticeCarriesStoredCode(users: Users, req: Request, crypto: Crypto, draw: CodeDraw, now: int)
    ensures var o := Step(users, req, crypto, draw, now);
            o.sent.Some? ==>
              && o.sent.value.code == Issue(draw, now).code
              && exists k :: k in o.users.rows && o.users.rows[k].challenge == Issue(draw, now)
  {
    var o := Step(users, req, crypto, draw, now);
    if o.sent.Some? {
      match req
      case RegisterCall(r) =>
        var key := StoredKey(r.kind.value, r.email, r.phone).value;
        assert key in o.users.rows;
      case LoginCall(r) =>
        var key := KindKey(r.kind.value, r.email, r.phone).value;
        assert key in o.users.rows;
      case VerifyCall(r) =>
      case ResendCall(r) =>
        var key := ContactKey(r.email, r.phone);
        assert key in o.users.rows;
    }
  }

  /** Unverified users never obtain a token: a login that returns one names a user who
      was already verified before the call. */
  lemma TokensOnlyForVerifiedUsers(users: Users, req: Request, crypto: Crypto, draw: CodeDraw, now: int)
    ensures var o := Step(users, req, crypto, draw, now);
            o.response.LoggedIn? ==>
              exists k :: k in users.rows && users.rows[k].verified && users.rows[k].id == o.response.id
  {
    var o := Step(users, req, crypto, draw, now);
    if o.response.LoggedIn? {
      var key := KindKey(req.login.kind.value, req.login.email, req.login.phone).value;
      assert users.rows[key].verified;
    }
  }

  /** Re-issuing a code with a different draw makes the previous code worthless: after
      a resend, the code the user held before is never accepted again, whichever email
      or phone the verification names to reach that user, and whenever it is sent. */
  lemma {:induction false} ResendInvalidatesPreviousCode(
    users: Users, email: Option<string>, phone: Option<string>,
    oldDraw: CodeDraw, issuedAt: int, draw: CodeDraw, now: int)
    requires Truthy(email) || Truthy(phone)
    requires ContactKey(email, phone) in users.rows
    requires !users.rows[ContactKey(email, phone)].verified
    requires users.rows[ContactKey(email, phone)].challenge == Issue(oldDraw, issuedAt)
    requires draw != oldDraw
    ensures var r := ResendOtp(users, ResendRequest(email, phone), draw, now);
            && r.response == OtpResent
            && forall e, p, t :: (Truthy(e) || Truthy(p)) && ContactKey(e, p) == ContactKey(email, phone) ==>
                 VerifyOtp(r.users, VerifyRequest(e, p, Some(Issue(oldDraw, issuedAt).code)), t).response != OtpVerified
  {
    IssueDistinguishesDraws(oldDraw, draw, issuedAt, now);
  }

  /** Only `isNotify` 0 or "0" blocks a registration: a boolean false, or no field at
      all, passes the opt-in check and the request goes on to the lookup. */
  lemma NotifyFalseIsNotRefused(users: Users, req: RegisterRequest, crypto: Crypto, draw: CodeDraw, now: int)
    requires req.isNotify == Boolean(false) || req.isNotify == Unset
    ensures Register(users, req, crypto, draw, now).response != NotificationsDisabled
  {
  }

  /** A `type` that spells "phone" in other letter case still names the phone column:
      the row is inserted and reachable by the phone number, the answer is 201, and no
      code is sent, since neither dispatch branch matches. */
  lemma {:induction false} CapitalisedPhoneRegistersSilently(
    users: Users, crypto: Crypto, name: string, phone: string, password: string, draw: CodeDraw, now: int)
    requires Phone(phone) !in users.rows
    requires name != "" && password != ""
    ensures var reg := Register(users, RegisterRequest(Some("Phone"), Some(name), None, Some(phone), Some(password), Unset),
                                crypto, draw, now);
            && reg.response == Registered(users.nextId)
            && Phone(phone) in reg.users.rows
            && !reg.users.rows[Phone(phone)].verified
            && reg.sent == None
  {
    assert NamesColumn("Phone", "phone");
    assert !NamesColumn("Phone", "email") by { assert AsciiLower("Phone"[0]) != "email"[0]; }
  }

  /** The end-to-end scenario: registering by email, submitting the dispatched code
      within 60 seconds, then logging in with the same password yields a token. */
  lemma {:induction false} RegisterVerifyLogin(
    users: Users, crypto: Crypto, name: string, email: string, password: string,
    draw: CodeDraw, registeredAt: int, verifiedAt: int, draw2: CodeDraw, loginAt: int)
    requires Email(email) !in users.rows
    requires name != "" && email != "" && password != ""
    requires crypto.matches(password, crypto.hash(password))
    requires registeredAt <= verifiedAt <= registeredAt + 60 * 1000
    ensures var reg := Register(users, RegisterRequest(Some("email"), Some(name), Some(email), None, Some(password), Number(1)),
                                crypto, draw, registeredAt);
            && reg.response == Registered(users.nextId)
            && reg.sent.Some?
            && var ver := VerifyOtp(reg.users, VerifyRequest(Some(email), None, Some(reg.sent.value.code)), verifiedAt);
            && ver.response == OtpVerified
            && var log := Login(ver.users, LoginRequest(Some("email"), Some(email), None, Some(password)), crypto, draw2, loginAt);
            && log.response.LoggedIn?
            && log.response.id == users.nextId
  {
    var reg := Register(users, RegisterRequest(Some("email"), Some(name), Some(email), None, Some(password), Number(1)),
                        crypto, draw, registeredAt);
    assert reg.users.rows[Email(email)].challenge == Issue(draw, registeredAt);
    var ver := VerifyOtp(reg.users, VerifyRequest(Some(email), None, Some(reg.sent.value.code)), verifiedAt);
    assert ver.users.rows[Email(email)].verified;
    assert ver.users.rows[Email(email)].passwordHash == crypto.hash(password);
  }

  /** The same scenario without verifying: a correct password on an unverified user is
      refused with 401 and a fresh code replaces the registration code. */
  lemma {:induction false} LoginBeforeVerifyReissues(
    users: Users, crypto: Crypto, name: string, email: string, password: string,
    draw: CodeDraw, registeredAt: int, draw2: CodeDraw, loginAt: int)
    requires Email(email) !in users.rows
    requires name != "" && email != "" && password != ""
    requires crypto.matches(password, crypto.hash(password))
    ensures var reg := Register(users, RegisterRequest(Some("email"), Some(name), Some(email), None, Some(password), Number(1)),
                                crypto, draw, registeredAt);
            && var log := Login(reg.users, LoginRequest(Some("email"), Some(email), None, Some(password)), crypto, draw2, loginAt);
            && log.response.RequireOtp?
            && log.response.Status() == 401
            && log.users.rows[Email(email)].challenge == Issue(draw2, loginAt)
            && log.sent == Some(Notice(Mail, Issue(draw2, loginAt).code))
  {
    var reg := Register(users, RegisterRequest(Some("email"), Some(name), Some(email), None, Some(password), Number(1)),
                        crypto, draw, registeredAt);
    assert !reg.users.rows[Email(email)].verified;
  }
}

=== FILE: decimal.dfy ===
/** Decimal rendering of non-negative integers, as `Number.prototype.toString()`
    produces it, and its inverse. */
module Decimal {

  predicate IsDigit(c: char) {
    '0' <= c <= '9'
  }

  predicate AllDigits(s: string) {
    forall i :: 0 <= i < |s| ==> IsDigit(s[i])
  }

  function DigitChar(d: nat): (c: char)
    requires d < 10
    ensures IsDigit(c)
  {
    ('0' as int + d) as char
  }

  function DigitValue(c: char): (d: nat)
    requires IsDigit(c)
    ensures d < 10
  {
    c as int - '0' as int
  }

  /** `n.toString()`: the shortest decimal numeral of `n`, most significant digit first. */
  function ToDecimal(n: nat): (s: string)
    ensures |s| >= 1
    ensures AllDigits(s)
    ensures |s| > 1 ==> s[0] != '0'
  {
    if n < 10 then [DigitChar(n)] else ToDecimal(n / 10) + [DigitChar(n % 10)]
  }

  /** The value of a string of decimal digits. */
  function ParseDecimal(s: string): nat
    requires AllDigits(s)
  {
    if s == [] then 0 else ParseDecimal(s[..|s| - 1]) * 10 + DigitValue(s[|s| - 1])
  }

  /** Reading back a rendered number gives the number. */
  lemma {:induction false} ParseToDecimal(n: nat)
    ensures ParseDecimal(ToDecimal(n)) == n
  {
    var s := ToDecimal(n);
    if n >= 10 {
      assert s[..|s| - 1] == ToDecimal(n / 10);
      ParseToDecimal(n / 10);
    }
  }

  /** Distinct numbers render as distinct strings. */
  lemma ToDecimalInjective(a: nat, b: nat)
    requires a != b
    ensures ToDecimal(a) != ToDecimal(b)
  {
    ParseToDecimal(a);
    ParseToDecimal(b);
  }

  /** Every number in [1000, 9999] renders as exactly four digits. */
  lemma FourDigits(n: nat)
    requires 1000 <= n <= 9999
    ensures |ToDecimal(n)| == 4
  {
    assert |ToDecimal(n / 1000)| == 1;
    assert ToDecimal(n / 100) == ToDecimal(n / 1000) + [DigitChar((n / 100) % 10)];
    assert ToDecimal(n / 10) == ToDecimal(n / 100) + [DigitChar((n / 10) % 10)];
  }
}

=== FILE: hospital_search.dfy ===
/** In-memory relevance ranking and pagination of `findHospitals`, and the page
    arithmetic of `getAllHospital` (`controllers/hospitalController.js`). The
    database filter that fetches candidate hospitals is outside the model: ranking
    starts from the fetched sequence. */
module HospitalSearch {
  import opened JsValues
  import opened SearchText
  import opened Pagination

  datatype Specialist = Specialist(specialty: Option<string>)

  /** A `HospitalSpecialties` row with its optional `Specialist`. */
  datatype HospitalSpecialty = HospitalSpecialty(specialty: Option<string>, specialist: Option<Specialist>)

  /** The fields of a fetched hospital that ranking reads. */
  datatype Hospital = Hospital(
    id: string,
    name: string,
    city: Option<string>,
    state: Option<string>,
    specialties: seq<HospitalSpecialty>)

  /** A hospital paired with its match score. */
  datatype Scored = Scored(hospital: Hospital, score: nat)

  function SpecialtiesText(ss: seq<HospitalSpecialty>): string {
    if ss == [] then []
    else
      " " + Interpolate(ss[0].specialty)
      + (if ss[0].specialist.Some? then " " + Interpolate(ss[0].specialist.value.specialty) else "")
      + SpecialtiesText(ss[1..])
  }

  /** The text a hospital is matched against: name, city, state, then each specialty
      and its specialist's specialty, separated by spaces (null columns print "null"). */
  function HospitalText(h: Hospital): string {
    h.name + " " + Interpolate(h.city) + " " + Interpolate(h.state) + SpecialtiesText(h.specialties)
  }

  /** The distinct search words whose lowercase form occurs in `lowerText`:
      `new Set(words.filter(w => lowerText.includes(lower(w))))`. */
  function MatchedWords(words: seq<string>, lowerText: string, lower: string -> string): (m: set<string>)
    ensures forall w :: w in m <==> w in words && Contains(lowerText, lower(w))
  {
    if words == [] then {}
    else
      (if Contains(lowerText, lower(words[0])) then {words[0]} else {})
      + MatchedWords(words[1..], lowerText, lower)
  }

  /** `matchScore`: the number of distinct search words found in the hospital's
      lowercased text. */
  function Score(h: Hospital, words: seq<string>, lower: string -> string): nat {
    |MatchedWords(words, lower(HospitalText(h)), lower)|
  }

  /** A score counts each distinct search word at most once: it never exceeds the number
      of distinct words, and a word counts exactly when its lowercase form occurs in the
      hospital's lowercased text. */
  lemma ScoreCountsDistinctMatches(h: Hospital, words: seq<string>, lower: string -> string)
    ensures Score(h, words, lower) <= |set w | w in words|
    ensures forall w :: w in MatchedWords(words, lower(HospitalText(h)), lower) <==>
              w in words && Contains(lower(HospitalText(h)), lower(w))
  {
    var m := MatchedWords(words, lower(HospitalText(h)), lower);
    var all := set w | w in words;
    assert m <= all;
    assert all == m + (all - m);
  }

  function ScoreAll(hs: seq<Hospital>, words: seq<string>, lower: string -> string): (r: seq<Scored>)
    ensures |r| == |hs|
    ensures forall i :: 0 <= i < |r| ==> r[i] == Scored(hs[i], Score(hs[i], words, lower))
  {
    seq(|hs|, i requires 0 <= i < |hs| => Scored(hs[i], Score(hs[i], words, lower)))
  }

  function Hospitals(s: seq<Scored>): (hs: seq<Hospital>)
    ensures |hs| == |s|
    ensures forall i :: 0 <= i < |s| ==> hs[i] == s[i].hospital
  {
    if s == [] then [] else [s[0].hospital] + Hospitals(s[1..])
  }

  predicate SortedByScore(s: seq<Scored>) {
    forall i, j :: 0 <= i < j < |s| ==> s[i].score >= s[j].score
  }

  /** The entries with score `k`, in their order in `s`. */
  function WithScore(s: seq<Scored>, k: nat): seq<Scored> {
    if s == [] then []
    else (if s[0].score == k then [s[0]] else []) + WithScore(s[1..], k)
  }

  /** Insert `x` in front of the first entry scoring no more than it. */
  function Insert(x: Scored, l: seq<Scored>): (r: seq<Scored>)
    ensures |r| == |l| + 1
    ensures multiset(r) == multiset(l) + multiset{x}
  {
    if l == [] || x.score >= l[0].score then [x] + l
    else
      assert l == [l[0]] + l[1..];
      [l[0]] + Insert(x, l[1..])
  }

  /** An insert keeps every score under a bound that the new entry and the old ones
      all stay under. */
  lemma {:induction false} InsertBounded(x: Scored, l: seq<Scored>, bound: nat)
    requires x.score <= bound
    requires forall i :: 0 <= i < |l| ==> l[i].score <= bound
    ensures forall i :: 0 <= i < |Insert(x, l)| ==> Insert(x, l)[i].score <= bound
  {
    if l != [] && x.score < l[0].score {
      InsertBounded(x, l[1..], bound);
    }
  }

  lemma {:induction false} InsertKeepsSorted(x: Scored, l: seq<Scored>)
    requires SortedByScore(l)
    ensures SortedByScore(Insert(x, l))
  {
    if l != [] && x.score < l[0].score {
      InsertKeepsSorted(x, l[1..]);
      InsertBounded(x, l[1..], l[0].score);
    }
  }

  lemma {:induction false} InsertWithScore(x: Scored, l: seq<Scored>, k: nat)
    ensures WithScore(Insert(x, l), k) == (if x.score == k then [x] else []) + WithScore(l, k)
  {
    if l == [] || x.score >= l[0].score {
      assert ([x] + l)[1..] == l;
    } else {
      var r := Insert(x, l);
      assert r[1..] == Insert(x, l[1..]);
      InsertWithScore(x, l[1..], k);
    }
  }

  lemma HospitalsCons(x: Scored, l: seq<Scored>)
    ensures Hospitals([x] + l) == [x.hospital] + Hospitals(l)
  {
    assert ([x] + l)[1..] == l;
  }

  /** Putting the same hospital in front of two sequences keeps the multiset relation
      between them. */
  lemma ConsKeepsMultiset(a: Hospital, t: seq<Hospital>, rest: multiset<Hospital>)
    requires multiset(t) == rest
    ensures multiset([a] + t) == multiset{a} + rest
  {
  }

  lemma {:induction false} InsertHospitals(x: Scored, l: seq<Scored>)
    ensures multiset(Hospitals(Insert(x, l))) == multiset(Hospitals(l)) + multiset{x.hospital}
  {
    if l == [] || x.score >= l[0].score {
      HospitalsCons(x, l);
      ConsKeepsMultiset(x.hospital, Hospitals(l), multiset(Hospitals(l)));
    } else {
      var t := Insert(x, l[1..]);
      var m := multiset(Hospitals(l[1..]));
      InsertHospitals(x, l[1..]);
      assert Insert(x, l) == [l[0]] + t;
      HospitalsCons(l[0], t);
      ConsKeepsMultiset(l[0].hospital, Hospitals(t), m + multiset{x.hospital});
      assert Hospitals(l) == [l[0].hospital] + Hospitals(l[1..]);
      ConsKeepsMultiset(l[0].hospital, Hospitals(l[1..]), m);
      assert multiset{l[0].hospital} + (m + multiset{x.hospital})
          == (multiset{l[0].hospital} + m) + multiset{x.hospital};
    }
  }

  /** `scored.sort((a, b) => b.matchScore - a.matchScore)`: a stable sort by
      descending score (insertion sort). */
  function StableSort(s: seq<Scored>): (r: seq<Scored>)
    ensures |r| == |s|
    ensures multiset(r) == multiset(s)
  {
    if s == [] then []
    else
      assert s == [s[0]] + s[1..];
      Insert(s[0], StableSort(s[1..]))
  }

  lemma {:induction false} StableSortSorted(s: seq<Scored>)
    ensures SortedByScore(StableSort(s))
  {
    if s != [] {
      StableSortSorted(s[1..]);
      InsertKeepsSorted(s[0], StableSort(s[1..]));
    }
  }

  lemma {:induction false} StableSortHospitals(s: seq<Scored>)
    ensures multiset(Hospitals(StableSort(s))) == multiset(Hospitals(s))
  {
    if s != [] {
      var t := StableSort(s[1..]);
      StableSortHospitals(s[1..]);
      InsertHospitals(s[0], t);
      ConsKeepsMultiset(s[0].hospital, Hospitals(s[1..]), multiset(Hospitals(s[1..])));
    }
  }

  lemma {:induction false} StableSortWithScore(s: seq<Scored>, k: nat)
    ensures WithScore(StableSort(s), k) == WithScore(s, k)
  {
    if s != [] {
      StableSortWithScore(s[1..], k);
      InsertWithScore(s[0], StableSort(s[1..]), k);
    }
  }

  /** The sort orders by descending score, moves hospitals without adding or losing
      any, and keeps the entries of each score in their original order. */
  lemma StableSortSpec(s: seq<Scored>)
    ensures SortedByScore(StableSort(s))
    ensures multiset(Hospitals(StableSort(s))) == multiset(Hospitals(s))
    ensures forall k :: WithScore(StableSort(s), k) == WithScore(s, k)
  {
    StableSortSorted(s);
    StableSortHospitals(s);
    forall k: nat
      ensures WithScore(StableSort(s), k) == WithScore(s, k)
    {
      StableSortWithScore(s, k);
    }
  }

  /** The fetched hospitals, scored and ranked. */
  function Ranked(fetched: seq<Hospital>, words: seq<string>, lower: string -> string): seq<Scored> {
    StableSort(ScoreAll(fetched, words, lower))
  }

  /** The ranking reorders the fetched hospitals and nothing else; scores never increase
      along it; and hospitals with equal scores keep their fetched order. */
  lemma RankingIsStableSortByScore(fetched: seq<Hospital>, words: seq<string>, lower: string -> string)
    ensures var r := Ranked(fetched, words, lower);
            && multiset(Hospitals(r)) == multiset(fetched)
            && SortedByScore(r)
            && (forall i :: 0 <= i < |r| ==> r[i].score == Score(r[i].hospital, words, lower))
            && forall k :: WithScore(r, k) == WithScore(ScoreAll(fetched, words, lower), k)
  {
    var s := ScoreAll(fetched, words, lower);
    var r := Ranked(fetched, words, lower);
    StableSortSpec(s);
    assert Hospitals(s) == fetched;
    forall i | 0 <= i < |r|
      ensures r[i].score == Score(r[i].hospital, words, lower)
    {
      assert r[i] in multiset(s);
    }
  }

  datatype SearchResponse =
    | SearchRequired
    | NoMatches
    | Matches(totalHospitals: nat, totalPages: nat, currentPage: int, hospitals: seq<Hospital>)
  {
    function Status(): int {
      match this
      case SearchRequired => 400
      case NoMatches => 404
      case Matches(_, _, _, _) => 200
    }
  }

  /** `parseInt(req.params.page || 1)`: an absent page is 1; no fallback after parsing. */
  function SearchPage(param: Option<ParsedInt>): ParsedInt {
    if param.None? then Num(1) else param.value
  }

  /** `ranked.slice(offset, offset + limit)` with `offset = (page - 1) * limit`; a NaN
      page makes both arguments NaN, which `slice` reads as 0. */
  function PageSlice<T>(s: seq<T>, page: ParsedInt, limit: nat): (r: seq<T>)
    ensures |r| <= limit
  {
    if page.NaN? then [] else Slice(s, (page.n - 1) * limit, (page.n - 1) * limit + limit)
  }

  /** `exports.findHospitals`, from the hospitals the database query returned. */
  function FindHospitals(search: Option<string>, pageParam: Option<ParsedInt>, fetched: seq<Hospital>,
                         lower: string -> string): (r: SearchResponse)
    ensures r == SearchRequired <==> search.None? || AllSpace(search.value)
    ensures r.Matches? ==>
              && 1 <= |r.hospitals| <= SmallPage
              && r.totalHospitals == |fetched|
              && r.totalPages == TotalPages(|fetched|, SmallPage)
  {
    var page := SearchPage(pageParam);
    if search.None? || search.value == "" || Trim(search.value) == "" then
      SearchRequired
    else
      var ranked := Ranked(fetched, SearchWords(search.value), lower);
      var shown := Hospitals(PageSlice(ranked, page, SmallPage));
      if |shown| == 0 then NoMatches
      else Matches(|ranked|, TotalPages(|ranked|, SmallPage), page.n, shown)
  }

  /** Whatever page is asked for, a response only shows fetched hospitals, each at most
      as often as it was fetched. */
  lemma SearchShowsOnlyFetched(search: Option<string>, pageParam: Option<ParsedInt>, fetched: seq<Hospital>,
                               lower: string -> string)
    ensures var r := FindHospitals(search, pageParam, fetched, lower);
            r.Matches? ==> multiset(r.hospitals) <= multiset(fetched)
  {
    if search.Some? && !AllSpace(search.value) {
      var words := SearchWords(search.value);
      RankingIsStableSortByScore(fetched, words, lower);
      SliceIsSubMultiset(Ranked(fetched, words, lower), SearchPage(pageParam), SmallPage);
    }
  }

  lemma SliceIsSubMultiset(s: seq<Scored>, page: ParsedInt, limit: nat)
    ensures |PageSlice(s, page, limit)| <= limit
    ensures multiset(Hospitals(PageSlice(s, page, limit))) <= multiset(Hospitals(s))
  {
    var p := PageSlice(s, page, limit);
    if p != [] {
      var from := RelativeIndex((page.n - 1) * limit, |s|);
      var to := RelativeIndex((page.n - 1) * limit + limit, |s|);
      assert s == s[..from] + p + s[to..];
      HospitalsAppend(s[..from], p);
      HospitalsAppend(s[..from] + p, s[to..]);
    }
  }

  lemma HospitalsAppend(a: seq<Scored>, b: seq<Scored>)
    ensures Hospitals(a + b) == Hospitals(a) + Hospitals(b)
  {
    var l := Hospitals(a + b);
    var r := Hospitals(a) + Hospitals(b);
    assert |l| == |r|;
    forall i | 0 <= i < |l|
      ensures l[i] == r[i]
    {
      if i < |a| {
        assert (a + b)[i] == a[i];
      } else {
        assert (a + b)[i] == b[i - |a|];
      }
    }
  }

  /** For a page of 1 or more, the response shows exactly the ranked hospitals at
      positions `[(page - 1) * 2, page * 2)`, and it is 404 exactly when that window
      starts past the end of the ranking. */
  lemma SearchPageWindow(search: string, page: int, fetched: seq<Hospital>, lower: string -> string)
    requires !AllSpace(search) && page >= 1
    ensures var ranked := Ranked(fetched, SearchWords(search), lower);
            var offset := (page - 1) * SmallPage;
            var r := FindHospitals(Some(search), Some(Num(page)), fetched, lower);
            && (r == NoMatches <==> offset >= |fetched|)
            && (r.Matches? ==>
                  && r.currentPage == page
                  && r.hospitals == Hospitals(ranked[offset..Min(offset + SmallPage, |fetched|)]))
  {
    var ranked := Ranked(fetched, SearchWords(search), lower);
    assert |ranked| == |fetched|;
    PositivePageSlice(ranked, page);
  }

  /** For a page of 1 or more, the page slice is the plain window. */
  lemma PositivePageSlice<T>(s: seq<T>, page: int)
    requires page >= 1
    ensures var offset := (page - 1) * SmallPage;
            PageSlice(s, Num(page), SmallPage) == s[Min(offset, |s|)..Min(offset + SmallPage, |s|)]
  {
    SliceNonNegative(s, (page - 1) * SmallPage, (page - 1) * SmallPage + SmallPage);
  }

  /** An unparsable or zero page never shows anything: the response is 404. */
  lemma UnusablePageFindsNothing(search: string, param: ParsedInt, fetched: seq<Hospital>, lower: string -> string)
    requires !AllSpace(search)
    requires param.NaN? || param.n == 0
    ensures FindHospitals(Some(search), Some(param), fetched, lower) == NoMatches
  {
    if param.Num? {
      var ranked := Ranked(fetched, SearchWords(search), lower);
      assert PageSlice(ranked, param, SmallPage) == [];
    }
  }

  /** A negative page is handed to `slice` as a negative offset, which counts back from
      the end of the ranking: page -1 of five ranked hospitals shows the second and third. */
  lemma NegativePageCountsFromEnd(search: string, fetched: seq<Hospital>, lower: string -> string)
    requires !AllSpace(search) && |fetched| == 5
    ensures var ranked := Ranked(fetched, SearchWords(search), lower);
            FindHospitals(Some(search), Some(Num(-1)), fetched, lower)
              == Matches(5, 3, -1, Hospitals(ranked[1..3]))
  {
    var ranked := Ranked(fetched, SearchWords(search), lower);
    assert |ranked| == 5;
    assert PageSlice(ranked, Num(-1), SmallPage) == ranked[1..3];
  }

  /** Every negative page is handed to `slice` with two negative arguments, which count
      back from the end of the ranking and stop at its start: the response shows the
      ranked hospitals at `[n + (page - 1) * 2, n + page * 2)`, cut off at 0, and it is
      404 exactly when that window is empty. */
  lemma NegativePageWindow(search: string, page: int, fetched: seq<Hospital>, lower: string -> string)
    requires !AllSpace(search) && page <= -1
    ensures var ranked := Ranked(fetched, SearchWords(search), lower);
            var lo := Max(|fetched| + (page - 1) * SmallPage, 0);
            var hi := Max(|fetched| + page * SmallPage, 0);
            var r := FindHospitals(Some(search), Some(Num(page)), fetched, lower);
            && lo <= hi <= |fetched|
            && (r == NoMatches <==> lo == hi)
            && (r.Matches? ==>
                  && r.currentPage == page
                  && r.hospitals == Hospitals(ranked[lo..hi]))
  {
    var ranked := Ranked(fetched, SearchWords(search), lower);
    assert |ranked| == |fetched|;
    NegativePageSlice(ranked, page);
  }

  /** For a negative page both `slice` arguments count back from the end. */
  lemma NegativePageSlice<T>(s: seq<T>, page: int)
    requires page <= -1
    ensures var lo := Max(|s| + (page - 1) * SmallPage, 0);
            var hi := Max(|s| + page * SmallPage, 0);
            && lo <= hi <= |s|
            && PageSlice(s, Num(page), SmallPage) == if lo < hi then s[lo..hi] else []
  {
    assert RelativeIndex((page - 1) * SmallPage, |s|) == Max(|s| + (page - 1) * SmallPage, 0);
    assert RelativeIndex((page - 1) * SmallPage + SmallPage, |s|) == Max(|s| + page * SmallPage, 0);
  }

  /** `exports.getAllHospital`: one page of two from the active hospitals in database
      order, with `page = parseInt(p) || 1`. */
  function AllHospitals(param: ParsedInt, active: seq<Hospital>): (l: Listing<Hospital>)
    ensures l.Listing? <==> PageOrOne(param) >= 1
    ensures l.Listing? ==>
              var page := PageOrOne(param);
              && l.currentPage == page
              && l.totalPages == TotalPages(|active|, SmallPage)
              && l.items == active[Min((page - 1) * SmallPage, |active|)..Min(page * SmallPage, |active|)]
              && (|l.items| > 0 <==> page <= l.totalPages)
  {
    var page := PageOrOne(param);
    if page >= 1 then
      PageContents(active, page, SmallPage);
      ListPage(active, param, SmallPage)
    else
      ListPage(active, param, SmallPage)
  }
}

=== FILE: js_values.dfy ===
/** The handful of JavaScript value behaviours the controllers lean on:
    optional request fields and their truthiness, the result of `parseInt`,
    `${}` interpolation of nullable columns, and `Array.prototype.slice`. */
module JsValues {

  /** A request-body field or nullable column: absent/null, or present. */
  datatype Option<+T> = None | Some(value: T) {

    /** `x ?? default` for a field the request may omit. */
    function GetOr(default: T): T {
      match this
      case Some(v) => v
      case None => default
    }
  }

  /** JavaScript truthiness of an optional string: absent and "" are falsy. */
  predicate Truthy(o: Option<string>) {
    o.Some? && o.value != ""
  }

  /** What `parseInt` returns for a route parameter. */
  datatype ParsedInt = Num(n: int) | NaN

  /** `parseInt(p) || 1`: NaN and 0 are falsy and fall back to page 1. */
  function PageOrOne(p: ParsedInt): (page: int)
    ensures page != 0
    ensures p.Num? && p.n != 0 ==> page == p.n
    ensures !(p.Num? && p.n != 0) ==> page == 1
  {
    if p.Num? && p.n != 0 then p.n else 1
  }

  /** Template-literal interpolation `${v}` of a nullable column: null prints as "null". */
  function Interpolate(o: Option<string>): string {
    match o
    case Some(s) => s
    case None => "null"
  }

  /** How `slice` turns one integer argument into a position of a sequence of length `n`:
      negative arguments count back from the end, and both ends are clamped. */
  function RelativeIndex(k: int, n: nat): (r: nat)
    ensures r <= n
    ensures 0 <= k <= n ==> r == k
  {
    if k < 0 then (if n + k < 0 then 0 else n + k)
    else if k < n then k
    else n
  }

  /** `s.slice(start, end)` with integer arguments. */
  function Slice<T>(s: seq<T>, start: int, end: int): (r: seq<T>)
    ensures |r| <= |s|
    ensures start <= end ==> |r| <= end - start
  {
    var from := RelativeIndex(start, |s|);
    var to := RelativeIndex(end, |s|);
    if from < to then s[from..to] else []
  }

  function Min(a: int, b: int): int {
    if a <= b then a else b
  }

  function Max(a: int, b: int): int {
    if a <= b then b else a
  }

  /** With non-negative arguments `slice` is the plain window `[start, end)` cut
      off at the end of the sequence. */
  lemma SliceNonNegative<T>(s: seq<T>, start: int, end: int)
    requires 0 <= start <= end
    ensures Slice(s, start, end) == s[Min(start, |s|)..Min(end, |s|)]
    ensures |Slice(s, start, end)| == Min(end, |s|) - Min(start, |s|)
  {
  }
}

=== FILE: otp.dfy ===
/** The one-time passcode attached to a user row: how a code is minted and how a
    submitted code is judged against it. */
module Otp {
  import opened Decimal

  /** A code stays valid for 60 seconds, in milliseconds. */
  const ExpiryWindowMs: int := 60 * 1000

  /** `Math.floor(1000 + Math.random() * 9000)` is an integer in [1000, 9999];
      the draw itself is supplied from outside the model. */
  type CodeDraw = n: int | 1000 <= n <= 9999 witness 1000

  /** The `otp` and `otp_expire_time` columns of a user row. */
  datatype Challenge = Challenge(code: string, expiresAt: int)

  /** A stored code is the decimal numeral of a draw: four digits, no leading zero. */
  predicate WellFormedCode(code: string) {
    && |code| == 4
    && AllDigits(code)
    && 1000 <= ParseDecimal(code) <= 9999
  }

  /** Mint a challenge at time `now`: the draw's decimal string, expiring one window later. */
  function Issue(draw: CodeDraw, now: int): (c: Challenge)
    ensures WellFormedCode(c.code)
    ensures ParseDecimal(c.code) == draw
    ensures c.expiresAt - now == ExpiryWindowMs
  {
    FourDigits(draw);
    ParseToDecimal(draw);
    Challenge(ToDecimal(draw), now + ExpiryWindowMs)
  }

  /** Two different draws never mint the same code, so a re-issued challenge with a
      fresh draw invalidates the previous code. */
  lemma IssueDistinguishesDraws(d1: CodeDraw, d2: CodeDraw, t1: int, t2: int)
    requires d1 != d2
    ensures Issue(d1, t1).code != Issue(d2, t2).code
  {
    ToDecimalInjective(d1, d2);
  }

  datatype Verdict = Accepted | Expired | Mismatch

  /** Judge a submitted code: an expired challenge is reported as expired whatever
      was submitted; only then is the code compared, by exact string equality. */
  function Validate(submitted: string, c: Challenge, now: int): (v: Verdict)
    ensures v == Expired <==> now > c.expiresAt
    ensures v == Accepted <==> now <= c.expiresAt && submitted == c.code
    ensures v == Mismatch <==> now <= c.expiresAt && submitted != c.code
  {
    if now > c.expiresAt then Expired
    else if submitted != c.code then Mismatch
    else Accepted
  }

  /** The code just issued is accepted anywhere inside its window and rejected as
      expired from the first millisecond after it. */
  lemma FreshCodeWindow(draw: CodeDraw, issuedAt: int, now: int)
    ensures Validate(Issue(draw, issuedAt).code, Issue(draw, issuedAt), now)
              == (if now <= issuedAt + 60000 then Accepted else Expired)
  {
  }
}

=== FILE: pagination.dfy ===
/** The page arithmetic shared by the list endpoints: `page = parseInt(p) || 1`,
    `offset = (page - 1) * limit`, a database window of `limit` rows starting at
    `offset`, and `totalPages = Math.ceil(count / limit)`. */
module Pagination {
  import opened JsValues

  /** Page size of the hospital, category and search listings. */
  const SmallPage: nat := 2
  /** Page size of the general article listing. */
  const ArticlePage: nat := 5

  /** `Math.ceil(count / limit)` on a non-negative count. */
  function TotalPages(count: nat, limit: nat): (pages: nat)
    requires limit > 0
    ensures count <= pages * limit
    ensures pages == 0 || (pages - 1) * limit < count
  {
    (count + limit - 1) / limit
  }

  /** The rows a `LIMIT offset, limit` query returns from `rows`. */
  function Window<T>(rows: seq<T>, offset: nat, limit: nat): (w: seq<T>)
    ensures |w| <= limit
    ensures forall k :: 0 <= k < |w| ==> offset + k < |rows| && w[k] == rows[offset + k]
    ensures |w| == Min(offset + limit, |rows|) - Min(offset, |rows|)
  {
    rows[Min(offset, |rows|)..Min(offset + limit, |rows|)]
  }

  /** One page of a listing as the handlers return it; a negative offset makes the
      generated `LIMIT` clause invalid SQL, so the query fails. */
  datatype Listing<T> =
    | Listing(currentPage: int, totalPages: nat, items: seq<T>)
    | QueryFailed

  /** A list handler: parse the page, compute the offset, count and fetch one window. */
  function ListPage<T>(rows: seq<T>, param: ParsedInt, limit: nat): (l: Listing<T>)
    requires limit > 0
    ensures l.Listing? <==> PageOrOne(param) >= 1
    ensures l.Listing? ==>
              && l.currentPage == PageOrOne(param)
              && l.totalPages == TotalPages(|rows|, limit)
              && l.totalPages * limit >= |rows|
              && |l.items| <= limit
  {
    var page := PageOrOne(param);
    var offset := (page - 1) * limit;
    if offset < 0 then QueryFailed
    else Listing(page, TotalPages(|rows|, limit), Window(rows, offset, limit))
  }

  /** A missing, unparsable or zero page parameter shows the first page. */
  lemma DefaultPageIsFirst<T>(rows: seq<T>, param: ParsedInt, limit: nat)
    requires limit > 0
    requires param.NaN? || param.n == 0
    ensures ListPage(rows, param, limit) == Listing(1, TotalPages(|rows|, limit), rows[..Min(limit, |rows|)])
  {
  }

  /** Positions `[(page - 1) * limit, page * limit)` make up page `page`. */
  predicate Covers(page: int, limit: nat, i: nat) {
    (page - 1) * limit <= i < page * limit
  }

  lemma MulMonotone(a: int, b: int, c: nat)
    requires a <= b
    ensures a * c <= b * c
  {
  }

  /** A page is non-empty exactly when it is one of pages 1 to `totalPages`, and then
      holds the rows from position `(page - 1) * limit` on. */
  lemma {:induction false} PageContents<T>(rows: seq<T>, page: int, limit: nat)
    requires limit > 0 && page >= 1
    ensures var l := ListPage(rows, Num(page), limit);
            && l.Listing?
            && (|l.items| > 0 <==> page <= l.totalPages)
            && l.items == rows[Min((page - 1) * limit, |rows|)..Min(page * limit, |rows|)]
  {
    var pages := TotalPages(|rows|, limit);
    var offset := (page - 1) * limit;
    assert offset + limit == page * limit;
    if page <= pages {
      MulMonotone(page - 1, pages - 1, limit);
      assert offset < |rows|;
    } else {
      MulMonotone(pages, page - 1, limit);
      assert offset >= |rows|;
    }
  }

  /** Every row sits on exactly one page: row `i` is item `i % limit` of page
      `i / limit + 1`, and that is the only page whose positions include `i`. */
  lemma {:induction false} EveryRowOnItsPage<T>(rows: seq<T>, limit: nat, i: nat)
    requires limit > 0 && i < |rows|
    ensures var l := ListPage(rows, Num(i / limit + 1), limit);
            l.Listing? && i % limit < |l.items| && l.items[i % limit] == rows[i]
    ensures forall page: int :: Covers(page, limit, i) <==> page == i / limit + 1
  {
    var q := i / limit;
    var r := i % limit;
    assert i == q * limit + r;
    assert (q + 1 - 1) * limit == q * limit;
    var l := ListPage(rows, Num(q + 1), limit);
    assert l.items == Window(rows, q * limit, limit);
    OnePageCovers(limit, i);
  }

  lemma {:induction false} OnePageCovers(limit: nat, i: nat)
    requires limit > 0
    ensures forall page: int :: Covers(page, limit, i) <==> page == i / limit + 1
  {
    var q := i / limit;
    assert i == q * limit + i % limit;
    forall page: int
      ensures Covers(page, limit, i) <==> page == q + 1
    {
      if page <= q {
        MulMonotone(page, q, limit);
      } else if page > q + 1 {
        MulMonotone(q + 1, page - 1, limit);
      }
    }
  }
}

=== FILE: search_text.dfy ===
/** Tokenising a search string the way `findHospitals` does:
    `search.trim().split(/\s+/).filter(Boolean)`, next to a reference definition
    (the maximal runs of non-white-space characters) it is proved equal to. */
module SearchText {

  /** ECMAScript white space and line terminators: what `trim` removes and what
      `\s` matches. */
  predicate IsSpace(c: char) {
    var k := c as int;
    || k == 0x09 || k == 0x0A || k == 0x0B || k == 0x0C || k == 0x0D
    || k == 0x20 || k == 0xA0 || k == 0x1680 || (0x2000 <= k <= 0x200A)
    || k == 0x2028 || k == 0x2029 || k == 0x202F || k == 0x205F || k == 0x3000
    || k == 0xFEFF
  }

  predicate NoSpace(s: string) {
    forall i :: 0 <= i < |s| ==> !IsSpace(s[i])
  }

  predicate AllSpace(s: string) {
    forall i :: 0 <= i < |s| ==> IsSpace(s[i])
  }

  function TrimStart(s: string): (r: string)
    ensures |r| <= |s| && r == s[|s| - |r|..]
    ensures AllSpace(s[..|s| - |r|])
    ensures r != [] ==> !IsSpace(r[0])
  {
    if s != [] && IsSpace(s[0]) then TrimStart(s[1..]) else s
  }

  function TrimEnd(s: string): (r: string)
    ensures |r| <= |s| && r == s[..|r|]
    ensures AllSpace(s[|r|..])
    ensures r != [] ==> !IsSpace(r[|r| - 1])
  {
    if s != [] && IsSpace(s[|s| - 1]) then TrimEnd(s[..|s| - 1]) else s
  }

  /** `r` is `s[i..j]`, and everything before `i` and from `j` on is white space. */
  predicate StripsTo(s: string, i: int, j: int, r: string) {
    0 <= i <= j <= |s| && r == s[i..j] && AllSpace(s[..i]) && AllSpace(s[j..])
  }

  /** `s.trim()`: the string without its leading and trailing white space. */
  function Trim(s: string): (r: string)
    ensures r == [] <==> AllSpace(s)
    ensures r != [] ==> !IsSpace(r[0]) && !IsSpace(r[|r| - 1])
    ensures exists i, j :: StripsTo(s, i, j, r)
  {
    var t := TrimStart(s);
    var r := TrimEnd(t);
    TrimmedEnds(s, t, r);
    r
  }

  /** Cutting a white-space prefix off `s` to get `t`, then a white-space suffix off `t`
      to get `r`, strips `s` to `r`; `r` is empty exactly when `s` is all white space. */
  lemma TrimmedEnds(s: string, t: string, r: string)
    requires |t| <= |s| && t == s[|s| - |t|..] && AllSpace(s[..|s| - |t|])
    requires |r| <= |t| && r == t[..|r|] && AllSpace(t[|r|..])
    requires t != [] ==> !IsSpace(t[0])
    ensures StripsTo(s, |s| - |t|, |s| - |t| + |r|, r)
    ensures r == [] <==> AllSpace(s)
  {
    var i := |s| - |t|;
    SuffixSlices(s, i, |r|);
    if r == [] {
      assert t == t[|r|..];
      assert s == s[..i] + t;
    } else {
      assert s[i] == r[0] == t[0];
    }
  }

  lemma SuffixSlices<T>(s: seq<T>, i: nat, k: nat)
    requires i + k <= |s|
    ensures s[i..][..k] == s[i..i + k] && s[i..][k..] == s[i + k..]
  {
  }

  /** Position of the first white-space character, or `|s|` if there is none. */
  function FirstSpace(s: string): (i: nat)
    ensures i <= |s|
    ensures NoSpace(s[..i])
    ensures i < |s| ==> IsSpace(s[i])
  {
    if s == [] || IsSpace(s[0]) then 0 else 1 + FirstSpace(s[1..])
  }

  /** Length of the run of white space `s` starts with. */
  function LeadingSpaces(s: string): (n: nat)
    ensures n <= |s|
    ensures AllSpace(s[..n])
    ensures n < |s| ==> !IsSpace(s[n])
  {
    if s != [] && IsSpace(s[0]) then 1 + LeadingSpaces(s[1..]) else 0
  }

  /** `s.split(/\s+/)`: the pieces between maximal runs of white space; a leading or
      trailing run leaves an empty piece, and "" splits into [""]. */
  function SplitOnSpaces(s: string): (pieces: seq<string>)
    ensures |pieces| >= 1
    ensures forall j :: 0 <= j < |pieces| ==> NoSpace(pieces[j])
    decreases |s|
  {
    var i := FirstSpace(s);
    if i == |s| then [s]
    else
      var rest := s[i..];
      [s[..i]] + SplitOnSpaces(rest[LeadingSpaces(rest)..])
  }

  /** `.filter(Boolean)` on strings: keep the non-empty ones, in order. */
  function DropEmpty(pieces: seq<string>): seq<string> {
    if pieces == [] then []
    else (if pieces[0] == [] then [] else [pieces[0]]) + DropEmpty(pieces[1..])
  }

  /** The search words of `findHospitals`: `search.trim().split(/\s+/).filter(Boolean)`. */
  function SearchWords(search: string): seq<string> {
    DropEmpty(SplitOnSpaces(Trim(search)))
  }

  /** Reference definition: the maximal runs of non-white-space characters of `s`,
      left to right. */
  function Words(s: string): (ws: seq<string>)
    ensures forall j :: 0 <= j < |ws| ==> ws[j] != [] && NoSpace(ws[j])
    decreases |s|
  {
    if s == [] then []
    else if IsSpace(s[0]) then Words(s[1..])
    else
      var i := FirstSpace(s);
      [s[..i]] + Words(s[i..])
  }

  /** Words joined by single spaces. */
  function JoinWords(ws: seq<string>): string {
    if ws == [] then []
    else if |ws| == 1 then ws[0]
    else ws[0] + " " + JoinWords(ws[1..])
  }

  /** The non-white-space characters of `s`, in order. */
  function DropSpaces(s: string): string {
    if s == [] then []
    else (if IsSpace(s[0]) then [] else [s[0]]) + DropSpaces(s[1..])
  }

  function Concat(ws: seq<string>): string {
    if ws == [] then [] else ws[0] + Concat(ws[1..])
  }

  /** White space in front of a string does not change its words. */
  lemma {:induction false} WordsSkipLeadingSpaces(s: string, n: nat)
    requires n <= |s| && AllSpace(s[..n])
    ensures Words(s[n..]) == Words(s)
    decreases n
  {
    if n > 0 {
      assert IsSpace(s[..n][0]);
      assert s[1..][..n - 1] == s[1..n];
      WordsSkipLeadingSpaces(s[1..], n - 1);
      assert s[1..][n - 1..] == s[n..];
    }
  }

  /** A string of white space has no words. */
  lemma SpacesHaveNoWords(w: string)
    requires AllSpace(w)
    ensures Words(w) == []
  {
    assert w[..|w|] == w;
    WordsSkipLeadingSpaces(w, |w|);
  }

  /** Appending white space, or nothing, does not move the first white-space position
      inside `x`, or it lands at the join. */
  lemma FirstSpaceOfAppend(x: string, w: string)
    requires w == [] || IsSpace(w[0])
    ensures FirstSpace(x + w) == FirstSpace(x)
  {
    var j := FirstSpace(x);
    assert (x + w)[..j] == x[..j];
    FirstSpaceUnique(x + w, j);
  }

  /** The first white-space position is the only position with no white space before
      it and white space (or the end) at it. */
  lemma {:induction false} FirstSpaceUnique(s: string, k: nat)
    requires k <= |s| && NoSpace(s[..k]) && (k < |s| ==> IsSpace(s[k]))
    ensures FirstSpace(s) == k
    decreases |s|
  {
    if s == [] {
    } else if IsSpace(s[0]) {
    } else {
      assert s[1..][..k - 1] == s[..k][1..];
      FirstSpaceUnique(s[1..], k - 1);
    }
  }

  /** White space after a string does not change its words. */
  lemma {:induction false} WordsIgnoreTrailingSpaces(x: string, w: string)
    requires AllSpace(w)
    ensures Words(x + w) == Words(x)
    decreases |x|
  {
    if x == [] {
      assert x + w == w;
      SpacesHaveNoWords(w);
    } else if IsSpace(x[0]) {
      assert (x + w)[1..] == x[1..] + w;
      WordsIgnoreTrailingSpaces(x[1..], w);
    } else {
      FirstSpaceOfAppend(x, w);
      var j := FirstSpace(x);
      assert (x + w)[..j] == x[..j];
      assert (x + w)[j..] == x[j..] + w;
      WordsIgnoreTrailingSpaces(x[j..], w);
    }
  }

  /** Trimming does not change the words of a string. */
  lemma TrimKeepsWords(s: string)
    ensures Words(Trim(s)) == Words(s)
  {
    var i, j :| StripsTo(s, i, j, Trim(s));
    StrippingKeepsWords(s, i, j, Trim(s));
  }

  /** Cutting white space off both ends does not change the words. */
  lemma StrippingKeepsWords(s: string, i: int, j: int, r: string)
    requires StripsTo(s, i, j, r)
    ensures Words(r) == Words(s)
  {
    WordsSkipLeadingSpaces(s, i);
    SuffixSlices(s, i, j - i);
    assert s[i..] == r + s[j..];
    WordsIgnoreTrailingSpaces(r, s[j..]);
  }

  /** Splitting on white-space runs and dropping the empty pieces yields exactly the
      words. */
  lemma {:induction false} SplitThenDropEmptyIsWords(s: string)
    ensures DropEmpty(SplitOnSpaces(s)) == Words(s)
    decreases |s|
  {
    var i := FirstSpace(s);
    if i == |s| {
      if s != [] {
        assert s[..|s|] == s;
        assert Words(s) == [s] + Words(s[|s|..]);
      }
    } else {
      var rest := s[i..];
      var m := LeadingSpaces(rest);
      var tail := SplitOnSpaces(rest[m..]);
      assert ([s[..i]] + tail)[1..] == tail;
      SplitThenDropEmptyIsWords(rest[m..]);
      WordsSkipLeadingSpaces(rest, m);
      if i == 0 {
        assert rest == s;
      }
    }
  }

  /** The search words are the words of the search string: trimming, splitting and
      filtering lose nothing and invent nothing. */
  lemma SearchWordsAreWords(search: string)
    ensures SearchWords(search) == Words(search)
  {
    SplitThenDropEmptyIsWords(Trim(search));
    TrimKeepsWords(search);
  }

  /** Reading the words back from words joined by single spaces gives the same words. */
  lemma {:induction false} WordsOfJoin(ws: seq<string>)
    requires forall j :: 0 <= j < |ws| ==> ws[j] != [] && NoSpace(ws[j])
    ensures Words(JoinWords(ws)) == ws
  {
    if ws == [] {
    } else {
      var w := ws[0];
      assert FirstSpace(w) == |w|;
      assert w[..|w|] == w;
      if |ws| == 1 {
        assert Words(w) == [w] + Words(w[|w|..]);
      } else {
        var rest := " " + JoinWords(ws[1..]);
        FirstSpaceOfAppend(w, rest);
        assert w + " " + JoinWords(ws[1..]) == w + rest;
        assert (w + rest)[..|w|] == w;
        assert (w + rest)[|w|..] == rest;
        assert rest[..1] == " ";
        WordsSkipLeadingSpaces(rest, 1);
        assert rest[1..] == JoinWords(ws[1..]);
        WordsOfJoin(ws[1..]);
      }
    }
  }

  lemma {:induction false} DropSpacesAppend(a: string, b: string)
    ensures DropSpaces(a + b) == DropSpaces(a) + DropSpaces(b)
    decreases |a|
  {
    if a == [] {
      assert a + b == b;
    } else {
      assert (a + b)[1..] == a[1..] + b;
      DropSpacesAppend(a[1..], b);
    }
  }

  lemma {:induction false} DropSpacesOfWord(a: string)
    requires NoSpace(a)
    ensures DropSpaces(a) == a
    decreases |a|
  {
    if a != [] {
      DropSpacesOfWord(a[1..]);
    }
  }

  /** The words hold every non-white-space character of `s`, in order, and nothing else. */
  lemma {:induction false} WordsKeepEveryCharacter(s: string)
    ensures Concat(Words(s)) == DropSpaces(s)
    decreases |s|
  {
    if s == [] {
    } else if IsSpace(s[0]) {
      WordsKeepEveryCharacter(s[1..]);
    } else {
      var i := FirstSpace(s);
      assert s == s[..i] + s[i..];
      DropSpacesAppend(s[..i], s[i..]);
      DropSpacesOfWord(s[..i]);
      WordsKeepEveryCharacter(s[i..]);
      assert ([s[..i]] + Words(s[i..]))[1..] == Words(s[i..]);
    }
  }

  /** `text.includes(w)`. */
  predicate Contains(text: string, w: string)
    decreases |text|
  {
    w <= text || (text != [] && Contains(text[1..], w))
  }
}
